=== FILE: README.md ===
# Cupid's Adventure — a Dafny model of the mini-game logic

This project models the per-frame and per-click logic of a browser game.
The game is a sequence of three levels, each a small mini-game, and the
model proves properties of each one:

- **Find the Queen** (level 1): three cards, one queen and two aces, are
  shuffled by fifteen adjacent swaps. The player then picks the queen, over
  three stages that shuffle faster each time.
- **Appa's dodging game** (level 2): the player's sprite moves up and down
  with the arrow keys. Fireballs enter from the right at a speed that grows
  with elapsed time, and a shrunken, centred hit-box decides collisions.
  Surviving the 30-second countdown wins; a hit loses.
- **Connections** (level 3): sixteen shuffled words hide four categories of
  four. Players select up to four words and submit them as a group.
- **Heart catcher**: a sibling arcade game (not mounted by the level page).
  A pointer-driven basket catches falling hearts worth 10 or 50 points, and
  500 points by the end of the 30-second clock wins.
- **The level page**: menu, levels 1–3 in order, skip, restart and the
  final screen.

Each game is an immutable record. Every frame or user event is a pure
function from state to state. Coordinates, speeds and times are `real`, and
the constants are exact (120 × 0.6 = 72 and so on). Every `Math.random()`
call becomes an explicit parameter in [0, 1). Every `setTimeout` is an
immediate transition. Frame timing comes in as parameters: the frame
timestamp in ms and the seconds since the previous frame.

Modules, one per source file:

| module | file | models |
|---|---|---|
| `GameUtils` | `game_utils.dfy` | `app/utils/gameUtils.ts`, plus the countdown updater shared by both arcade games |
| `AvatarGame` | `avatar_game.dfy` | `app/components/AvatarGame.tsx` |
| `HeartCatcher` | `heart_catcher.dfy` | `app/components/HeartCatcher.tsx` |
| `Connections` | `connections.dfy` | `app/components/Connections.tsx` |
| `Levels` | `levels.dfy` | `app/page.tsx` |
| `FindTheQueen` | `find_the_queen.dfy` | `app/components/FindTheQueen.tsx` |
| `Sequences` | `sequences.dfy` | shared helpers: `Swap` of two positions, `NoDuplicates` |
| `Wrappers` | `wrappers.dfy` | `Option`, for the nullable selected card and the level table |

**Dodging-game frame order.** A dodging-game frame (`AvatarGame.Tick`) runs
these sub-steps in a fixed order:

1. elapsed time;
2. countdown, where expiry sets the completed flag;
3. player move;
4. time-gated spawn;
5. filter-then-move over the fireballs;
6. collision, which ends the game;
7. the level-complete effect (completed and clock at zero ends the game and
   opens the modal).

In the source the countdown runs through a React state updater, so the
interleaving of expiry and collision within one frame depends on React's
batching. The model picks one order: a frame in which the clock runs out
counts as a completed level even if a fireball also hits.

**Heart-catcher frame order.** A heart-catcher frame runs the countdown
first. It decides the win on the score held before this frame's catches.
Spawn, fall, catch and prune follow.

**Find the Queen swaps.** Each scheduled swap exchanges the card faces taken
from the cards captured when the shuffle began. The positions are exchanged
from the previous swap's result. So after a shuffle the positions have been
through fifteen adjacent swaps, but the cards differ from the start by the
last swap alone (`FindTheQueen.FinishShuffle`). The queen therefore ends up
under the element it started in unless the last swap moved it.

## Model

| member | source | states |
|---|---|---|
| `GameUtils.AppaHitbox` | app/utils/gameUtils.ts:30-35 | the reduced hit-box is 72 × 36 at offset (24, 12) from the sprite's corner |
| `GameUtils.HitboxCentredInSprite` | app/utils/gameUtils.ts:30-35 | the hit-box is strictly smaller than the 120 × 60 sprite, strictly inside it and centred (equal margins on both sides of each axis) |
| `GameUtils.IsColliding` | app/utils/gameUtils.ts:28-43 | the collision test: strict comparisons of the reduced hit-box against the 80 × 40 fireball box on both axes |
| `GameUtils.CollidingIsHitboxOverlap` | app/utils/gameUtils.ts:28-43 | `isColliding` holds exactly when the hit-box and the 80 × 40 fireball box overlap as open rectangles |
| `GameUtils.OverlapsSymmetric` | app/utils/gameUtils.ts:38-43 | open-rectangle overlap is symmetric |
| `GameUtils.CollisionImpliesSpriteOverlap` | app/utils/gameUtils.ts:30-43 | a collision with the reduced hit-box is also an overlap with the full sprite |
| `GameUtils.EdgeContactIsNoCollision` | app/utils/gameUtils.ts:38-43 | a fireball box that only touches an edge of the hit-box does not collide (strict comparisons) |
| `GameUtils.CollisionTranslationInvariant` | app/utils/gameUtils.ts:38-43 | shifting player and fireball by the same vector leaves the collision outcome unchanged |
| `GameUtils.FireballSpeed` | app/utils/gameUtils.ts:47-49 | speed lies in [7, 22] for non-negative elapsed time, is 22 from 75 s on, and 7 + t/5 before |
| `GameUtils.FireballSpeedMonotone` | app/utils/gameUtils.ts:47-49 | speed never decreases as elapsed time grows |
| `GameUtils.GenerateFireball` | app/utils/gameUtils.ts:46-55 | a new fireball starts at x = 700 with y = r · 485, hence in [0, 485), and the time-scaled speed |
| `GameUtils.IsAtTarget` | app/utils/gameUtils.ts:82-94 | the target test: the player's 20-square lies strictly inside the 50-square at (650, 275) |
| `GameUtils.IsAtTargetRange` | app/utils/gameUtils.ts:82-94 | `isAtTarget` holds iff 650 < x < 680 and 275 < y < 305 |
| `GameUtils.AtTargetIsStrictContainment` | app/utils/gameUtils.ts:82-94 | at the target, the 20-square lies strictly inside the 50-square target |
| `GameUtils.CountDown` | app/components/AvatarGame.tsx:132-139 | time left is never negative, is prev − dt unless that is ≤ 0, in which case it is 0 and expiry is reported; it does not grow for dt ≥ 0 |
| `AvatarGame.KeyDown` | app/components/AvatarGame.tsx:77-82 | an arrow code becomes held, any other code changes nothing, every other key keeps its held-state |
| `AvatarGame.KeyUp` | app/components/AvatarGame.tsx:84-88 | an arrow code becomes released, any other code changes nothing, every other key keeps its held-state |
| `AvatarGame.UpdateAppaPosition` | app/components/AvatarGame.tsx:111-123 | x never changes; y stays in [0, 465] if it started there; no arrow held leaves the position unchanged; up alone moves −10 clamped at 0, down alone +10 clamped at 465; both held cancel out from y ≥ 10 and end at y = 10 from below 10 |
| `AvatarGame.SpawnFireball` | app/components/AvatarGame.tsx:144-148 | a fireball is appended iff more than 500 ms passed since the last spawn, at most one, existing ones untouched, the new one is the generated fireball for this frame's draw and elapsed time, and the spawn time becomes the frame time |
| `AvatarGame.SpawnSpacing` | app/components/AvatarGame.tsx:145-147 | two spawns from successive frames are more than 500 ms apart |
| `AvatarGame.AdvanceFireballsMembers` | app/components/AvatarGame.tsx:151-156 | a fireball is in the result iff it is an input fireball with x + 80 > 0 before the move, moved left by its speed with y and speed unchanged |
| `AvatarGame.AdvanceFireballs` | app/components/AvatarGame.tsx:151-156 | the filter-then-move pass never yields more fireballs than it is given |
| `AvatarGame.AdvanceFireballsAppend` | app/components/AvatarGame.tsx:151-156 | the pass distributes over concatenation, so it works fireball by fireball and preserves their order |
| `AvatarGame.AdvanceHitIff` | app/components/AvatarGame.tsx:151-162 | a moved fireball collides with the sprite iff some input fireball that was on screen before the move collides at its moved position |
| `AvatarGame.AdvanceKeepsRange` | app/components/AvatarGame.tsx:151-156 | the pass keeps every fireball's y in [0, 485) and speed in [7, 22], since moving changes only x |
| `AvatarGame.HandleStart` | app/components/AvatarGame.tsx:207-224 | start resets the position to (50, 232.5), clears fireballs, spawn time, elapsed time and keys, sets 30 s and not over, and keeps the loaded images |
| `AvatarGame.Tick` | app/components/AvatarGame.tsx:125-162 | a frame changes nothing unless the game is running; otherwise the sprite makes its key-driven move, the fireballs are the spawn step's list filtered and moved, the spawn time and clock are those of the spawn and countdown steps, the game is over after the frame exactly when the clock hit zero or a moved fireball collides with the moved sprite, and the level is completed exactly when the clock hit zero |
| `AvatarGame.InitialValid` | app/components/AvatarGame.tsx:34-45 | the first rendered session satisfies the session invariant |
| `AvatarGame.HandleStartValid` | app/components/AvatarGame.tsx:207-224 | a started session satisfies the invariant and is running |
| `AvatarGame.TickPreservesValid` | app/components/AvatarGame.tsx:125-156 | frames keep x = 50, y in [0, 465], the clock in [0, 30], and every fireball's y in [0, 485) and speed in [7, 22] |
| `AvatarGame.TickGameOverIffHit` | app/components/AvatarGame.tsx:150-162 | a running frame ends the game iff the clock hit zero or some fireball on screen before the move (old or just spawned) collides, at its moved position, with the moved sprite |
| `AvatarGame.TickLostIffHit` | app/components/AvatarGame.tsx:239-241 | from a valid running session, the frame shows the "hit" message iff time is left and a fireball collides with the sprite |
| `AvatarGame.GameOverIsFinal` | app/components/AvatarGame.tsx:99-100 | once the game is over no frame changes the session |
| `HeartCatcher.BasketX` | app/components/HeartCatcher.tsx:62 | the basket lies in [0, 700] for any pointer x, centred on the pointer where possible and pinned to the edge otherwise |
| `HeartCatcher.MouseMove` | app/components/HeartCatcher.tsx:59-65 | while the game runs a pointer move sets only the basket; otherwise nothing changes |
| `HeartCatcher.NewHeart` | app/components/HeartCatcher.tsx:83-90 | a new heart has size 20 + 20 · d.size in [20, 40), x = d.x · (800 − size) in [0, 800 − size), y = −size, speed 1 + 3 · d.speed in [1, 4), and 50 points iff the bonus draw is below 0.2, else 10 |
| `HeartCatcher.SpawnHeart` | app/components/HeartCatcher.tsx:81-93 | a heart is appended iff more than 500 ms passed since the last spawn, at most one, and the spawn time becomes the frame time |
| `HeartCatcher.UpdateHearts` | app/components/HeartCatcher.tsx:96-110 | the fall/catch/prune pass: kept and caught hearts together are never more than the input hearts |
| `HeartCatcher.KeptMembers` | app/components/HeartCatcher.tsx:96-110 | a heart stays in play iff it is an input heart moved down by its speed, not caught at its moved position, and with moved y < 600 |
| `HeartCatcher.SpawnKeepsPoints` | app/components/HeartCatcher.tsx:81-93 | spawning only adds hearts worth 10 or 50 |
| `HeartCatcher.UpdateKeepsPoints` | app/components/HeartCatcher.tsx:96-110 | kept and caught hearts keep their worth of 10 or 50, and kept hearts have y < 600 |
| `HeartCatcher.CaughtMembers` | app/components/HeartCatcher.tsx:96-107 | a heart is scored iff it is an input heart moved down by its speed whose moved box meets the basket test (bottom below 550, horizontal overlap with the basket) |
| `HeartCatcher.KeptAboveBottom` | app/components/HeartCatcher.tsx:109 | every surviving heart has y < 600 |
| `HeartCatcher.SumPointsBounds` | app/components/HeartCatcher.tsx:100-107 | catches of 10- and 50-point hearts add a multiple of ten, at least 10 and at most 50 per heart |
| `HeartCatcher.HandleStart` | app/components/HeartCatcher.tsx:178-188 | start sets the basket to 350, clears hearts and spawn time, score 0, 30 s, running |
| `HeartCatcher.Tick` | app/components/HeartCatcher.tsx:67-110 | a frame changes nothing unless running; otherwise the hearts are those the fall/catch/prune pass keeps from the spawn step's list, the score grows by exactly the points of the hearts it catches, the spawn time and clock are those of the spawn and countdown steps, the game is over iff the clock ran out, and the completion notifier is called iff the clock ran out with the pre-frame score ≥ 500; the basket and the started flag are untouched |
| `HeartCatcher.WinWithoutNotification` | app/components/HeartCatcher.tsx:40-45 | at 490 points, a 10-point catch in the expiry frame shows the "won" message without calling the notifier |
| `HeartCatcher.TickAsIntended` | app/components/HeartCatcher.tsx:40-45 | the same frame with the notifier called exactly when the frame ends the game with a winning score after its catches |
| `HeartCatcher.InitialValid` | app/components/HeartCatcher.tsx:34-38 | the first rendered session satisfies the session invariant |
| `HeartCatcher.HandleStartValid` | app/components/HeartCatcher.tsx:178-188 | a started session satisfies the invariant and is running |
| `HeartCatcher.MouseMovePreservesValid` | app/components/HeartCatcher.tsx:62 | pointer moves keep the invariant |
| `HeartCatcher.TickPreservesValid` | app/components/HeartCatcher.tsx:72-110 | frames never lower the score and keep it a multiple of ten; hearts stay above 600 and worth 10 or 50; the notifier is called at most once per session, and only with score ≥ 500 |
| `HeartCatcher.TickAsIntendedPreservesValid` | app/components/HeartCatcher.tsx:40-45 | with the intended notifier, frames keep the session valid and call the notifier exactly when the game ends in a win |
| `Connections.PickIndex` | app/components/Connections.tsx:47 | `floor(r · (i + 1))` lies in [0, i] |
| `Connections.ShuffleArray` | app/components/Connections.tsx:44-51 | the shuffled words are a permutation of the input: same length, same multiset |
| `Connections.WithoutId` | app/components/Connections.tsx:66 | removes exactly the entries with the given id |
| `Connections.RemoveSelected` | app/components/Connections.tsx:83 | keeps exactly the words that are not selected |
| `Connections.RemainingWords` | app/components/Connections.tsx:109 | keeps exactly the words whose category has not been found |
| `Connections.HandleWordClick` | app/components/Connections.tsx:64-70 | a click changes only the selection, and leaves the clicked word selected iff it was not selected and fewer than 4 were |
| `Connections.ToggleWord` | app/components/Connections.tsx:64-70 | a selected word is removed by id; an unselected word is appended iff fewer than 4 are selected; so the selection never exceeds 4 |
| `Connections.HandleSubmit` | app/components/Connections.tsx:72-95 | a selection of size ≠ 4 changes only the message; 4 words of one category append it to the found list, remove exactly the selected words (keeping the others in order), clear the selection and show that category as correct unless it was the fourth; 4 mixed words change only the message; the all-found message appears iff 3 categories were found before a correct submit |
| `Connections.InitialWordsCategories` | app/components/Connections.tsx:18-35 | every initial word belongs to one of the four categories |
| `Connections.StartValid` | app/components/Connections.tsx:60-62 | any arrangement drawn from the sixteen initial words is a valid starting puzzle |
| `Connections.ClickPreservesValid` | app/components/Connections.tsx:64-70 | clicking a shown word keeps the selection at most four distinct shown words |
| `Connections.WithoutIdNoDuplicates` | app/components/Connections.tsx:66 | deselecting keeps the selection free of duplicates |
| `Connections.SubmitPreservesValid` | app/components/Connections.tsx:72-95 | submitting keeps the puzzle valid; in particular a category is never found twice |
| `Connections.DistinctCategoriesBound` | app/components/Connections.tsx:82 | a duplicate-free list drawn from a set is no longer than the set, and covers it when equally long |
| `Connections.FoundAtMostFour` | app/components/Connections.tsx:152 | at most four categories are ever found, and the claim button (four found) means all four categories were found |
| `Levels.HandleStart` | app/page.tsx:20-22 | starting leaves the level and completion unchanged |
| `Levels.NextLevel` | app/page.tsx:25-32 | below level 3 the level goes up by one; at level 3 it stays and the game is completed |
| `Levels.HandleLevelComplete` | app/page.tsx:24-33 | below level 3 only the level goes up by one; at level 3 only the completed flag is set |
| `Levels.HandleSkipLevel` | app/page.tsx:35-44 | the skip button has the same effect as completing the level |
| `Levels.SkipIsComplete` | app/page.tsx:24-44 | skip and complete are the same transition on every state |
| `Levels.ResetGame` | app/page.tsx:46-50 | restart returns to not started, level 1, not completed |
| `Levels.GameForLevel` | app/page.tsx:90-92 | levels 1, 2, 3 show FindTheQueen, AvatarGame and Connections, and no other level shows a game |
| `Levels.GameForLevelInjective` | app/page.tsx:90-92 | different levels show different games |
| `Levels.View` | app/page.tsx:71-109 | not started shows the menu, completed shows the final screen, otherwise the level's game |
| `Levels.TransitionsPreserveValid` | app/page.tsx:11-50 | from a level in 1..3 every transition stays in 1..3, so a game is always shown |
| `Levels.CompletionsFromStart` | app/page.tsx:24-33 | after n completions from a fresh start the level is min(1 + n, 3), and the game is completed iff n ≥ 3 |
| `Levels.CompletionsFrom` | app/page.tsx:24-33 | from an uncompleted level l, n completions reach level min(l + n, 3), completed iff l + n > 3 |
| `Levels.CompletedStays` | app/page.tsx:29-30 | once completed at level 3, further completions change nothing |
| `FindTheQueen.ShuffleSpeed` | app/components/FindTheQueen.tsx:33-44 | 1000 ms for stage 1, 700 for stage 2, 400 for stage 3, 1000 otherwise |
| `FindTheQueen.ShuffleSpeedDecreasing` | app/components/FindTheQueen.tsx:33-44 | the speed strictly decreases over stages 1..3 |
| `FindTheQueen.DoneAfterLastSwap` | app/components/FindTheQueen.tsx:55-87 | the done transition comes one interval after the last swap (14 · speed vs 15 · speed) and after every swap |
| `FindTheQueen.SwapIndex` | app/components/FindTheQueen.tsx:62-63 | the left index of the swapped pair is 0 or 1 |
| `FindTheQueen.ShuffleStep` | app/components/FindTheQueen.tsx:59-76 | one step swaps the adjacent pair picked by the draw, the same pair in the captured cards and in the previous positions |
| `FindTheQueen.RunSteps` | app/components/FindTheQueen.tsx:56-79 | after the scheduled steps the positions are a permutation of the starting ones and the cards are the captured cards with the last step's swap |
| `FindTheQueen.SwapFlipsParity` | app/components/FindTheQueen.tsx:62-68 | one adjacent swap of three slots turns a rotation of the arrangement into a transposition and back |
| `FindTheQueen.SwapAll` | app/components/FindTheQueen.tsx:56-76 | the slots after the scheduled swaps, each draw swapping the adjacent pair it picks; always three slots |
| `FindTheQueen.RunStepsPositions` | app/components/FindTheQueen.tsx:56-79 | the scheduled steps move the slots exactly as `SwapAll` does |
| `FindTheQueen.SwapAllParity` | app/components/FindTheQueen.tsx:56-79 | after n adjacent swaps the arrangement's parity has flipped n times |
| `FindTheQueen.ShuffleMovesPositions` | app/components/FindTheQueen.tsx:56-79 | fifteen swaps of three distinct slots never leave the positions where they started |
| `FindTheQueen.ValidShuffleMovesPositions` | app/components/FindTheQueen.tsx:46-88 | every shuffle of a reachable table moves the positions |
| `FindTheQueen.StartShuffle` | app/components/FindTheQueen.tsx:90-96 | shuffling starts face down with selection and result cleared; nothing else changes (cards, positions, stage, completion modal) |
| `FindTheQueen.FinishShuffle` | app/components/FindTheQueen.tsx:46-88 | a finished shuffle leaves the cards one adjacent swap away from the start (the last drawn), positions permuted, shuffling over; stage, selection, face, result and completion modal unchanged |
| `FindTheQueen.HandleCardClick` | app/components/FindTheQueen.tsx:98-131 | clicks while shuffling are ignored; the queen below stage 3 advances the stage, resets positions to (−220,0),(0,0),(220,0), turns the cards face up and clears selection and result, and nothing else; the queen at stage 3 opens the completion modal; an ace clears the selection and keeps the stage |
| `FindTheQueen.ValidHasOneQueen` | app/components/FindTheQueen.tsx:18 | a valid table holds exactly one queen |
| `FindTheQueen.InitialValid` | app/components/FindTheQueen.tsx:18-27 | the starting table is valid |
| `FindTheQueen.StartShufflePreservesValid` | app/components/FindTheQueen.tsx:90-96 | starting a shuffle keeps the table valid |
| `FindTheQueen.FinishShufflePreservesValid` | app/components/FindTheQueen.tsx:56-79 | a shuffle keeps exactly one queen among three cards and the positions a permutation of the start |
| `FindTheQueen.ClickPreservesValid` | app/components/FindTheQueen.tsx:106-130 | clicks, with their delayed follow-ups applied at once, keep the table valid, so the stage stays in 1..3 |

## Left out

- Canvas rendering is not modelled: clearing, images, the heart Bézier paths, text overlays and `drawLevel`. It is pure presentation.
- The stale `timeLeft`/`score` values drawn as on-canvas text are left out, because they are rendering only.
- Image loading is asynchronous I/O. The dodging game's loaded images appear only as flags that start preserves.
- `requestAnimationFrame` scheduling, effect re-subscription and `setState` batching are left out. Frame timestamps and frame gaps are parameters of `Tick`, and the frame order is the fixed one described above.
- `Math.random()` is replaced by explicit draws in [0, 1). IEEE-754 rounding is not modelled, because coordinates are reals.
- Every `setTimeout` delay is immediate. In Find the Queen this hides the brief "selected, result shown" display before a stage advance or retry. The word puzzle's shake animation is left out for the same reason.
- FindTheQueen.ClickPreservesValid: the stage bound holds only because the 2-second advance after a correct pick is applied at once. In the source, `handleCardClick` is guarded by `isShuffling` alone, so a second click on the queen within those 2 seconds queues a second `setStage(prev => prev + 1)`. That takes stage 1 straight to 3, or stage 2 to 4, where `getShuffleSpeed` falls back to 1000 ms. Pending advances are not modelled.
- The page's window-resize scale factor is layout and is not modelled.
- `app/components/GameCanvas.tsx` is not mounted by the page, and its collision call passes a number where a fireball is expected, so it is not part of this model. `isAtTarget` is modelled on its own.
- `MainMenu.tsx`, `FinalScreen.tsx`, `LevelCompleteModal.tsx` and `layout.tsx` are static UI and are not part of this model. The modal's "next" button calls the page's level-complete handler, which is modelled as `Levels.HandleLevelComplete`.
- Message texts are an enumeration, not strings. Word colours (`getWordColor`) and found-group rendering are left out as presentation.
- The word puzzle's `includes` compares object identity. The model compares word values, which agree because every word has a distinct id.
- Connections.ShuffleArray: states that the result is a permutation of the input, not which permutation the draws select. The draw for position i is `draws[i]`, which reorders the source's sequence of calls.
- HeartCatcher.Tick: the win check uses the score from before the frame's catches, as the `score` captured by `handleLevelComplete` is that of the previous render (see Findings).
- AvatarGame.Tick: a frame where the clock runs out and a fireball hits counts as a completed level. The source's outcome depends on React batching.

## Findings

| source | as written | input that shows it | evidently intended | confidence | as-written member | corrected member |
|---|---|---|---|---|---|---|
| app/components/HeartCatcher.tsx:40-45 | `handleLevelComplete` tests the `score` of the render before the expiry frame, so points caught in that frame do not count towards the notifier, while the end message (lines 204-208) tests the final score | score 490 and 0.01 s left; a 10-point heart at (0, 545), size 20, speed 1, basket at 0; next frame 0.02 s later: the heart is caught, the score becomes 500 and "Congratulations" shows, but `onLevelComplete` is not called | the notifier is called exactly when the game ends with the score the win message shows | medium, not executed | `HeartCatcher.WinWithoutNotification` | `HeartCatcher.TickAsIntended` |

=== FILE: avatar_game.dfy ===
/**
  The dodging game: the player's sprite flies at a fixed x and moves up and
  down with the held arrow keys while fireballs enter from the right and sweep
  left; surviving the 30-second countdown wins, a hit loses.

  One animation frame is one `Tick`, with this fixed order of sub-steps:
  elapsed time, countdown, player move, spawn, fireball filter-then-move,
  collision, and finally the level-complete transition when the clock ran out.
  Frame timestamps and the last spawn time are in milliseconds; elapsed time
  and time left are in seconds.
 */
module AvatarGame {
  import opened GameUtils

  const ArrowUp: string := "ArrowUp"
  const ArrowDown: string := "ArrowDown"
  const ArrowCodes: set<string> := {"ArrowUp", "ArrowDown", "ArrowLeft", "ArrowRight"}

  /** Vertical step per frame while an arrow key is held, in pixels. */
  const MoveDistance: real := 10.0
  /** Minimum gap between two fireball spawns, in milliseconds (exclusive). */
  const SpawnInterval: real := 500.0
  /** Lowest y the sprite may take so that it stays on the canvas. */
  const MaxAppaY: real := CanvasHeight - AppaHeight
  const StartPos: Position := Position(50.0, CanvasHeight / 2.0 - AppaHeight / 2.0)

  /** Held-state of the keys seen so far; a key never pressed is absent and reads as not held. */
  type Keys = map<string, bool>

  predicate Held(keys: Keys, code: string) {
    code in keys && keys[code]
  }

  /** Which images have finished loading; loading itself is outside the model. */
  datatype Assets = Assets(appaImage: bool, fireballImage: bool, background: bool)

  datatype Session = Session(
    appaPos: Position,
    fireballs: seq<Fireball>,
    assets: Assets,
    lastFireballTime: real,
    timeElapsed: real,
    keys: Keys,
    started: bool,
    gameOver: bool,
    timeLeft: real,
    levelCompleted: bool,
    showCompleteModal: bool)

  // ---------------------------------------------------------------------------
  // Input sampler

  function SetKey(keys: Keys, code: string, down: bool): (r: Keys)
    ensures code in ArrowCodes ==> code in r && r[code] == down
    ensures code !in ArrowCodes ==> r == keys
    ensures forall c :: c != code ==> (c in r <==> c in keys)
    ensures forall c :: c != code && c in keys ==> r[c] == keys[c]
  {
    if code in ArrowCodes then keys[code := down] else keys
  }

  /** `handleKeyDown`: only the four arrow codes are recorded, as held. */
  function KeyDown(s: Session, code: string): (s': Session)
    ensures Held(s'.keys, code) <==> code in ArrowCodes || Held(s.keys, code)
    ensures forall c :: c != code ==> (Held(s'.keys, c) <==> Held(s.keys, c))
    ensures s'.(keys := s.keys) == s
  {
    s.(keys := SetKey(s.keys, code, true))
  }

  /** `handleKeyUp`: only the four arrow codes are recorded, as released. */
  function KeyUp(s: Session, code: string): (s': Session)
    ensures Held(s'.keys, code) <==> code !in ArrowCodes && Held(s.keys, code)
    ensures forall c :: c != code ==> (Held(s'.keys, c) <==> Held(s.keys, c))
    ensures s'.(keys := s.keys) == s
  {
    s.(keys := SetKey(s.keys, code, false))
  }

  // ---------------------------------------------------------------------------
  // Player movement

  /** `updateAppaPosition`: up first, clamped at the top; then down, clamped at the bottom. */
  function UpdateAppaPosition(pos: Position, keys: Keys): (p: Position)
    ensures p.x == pos.x
    ensures 0.0 <= pos.y <= MaxAppaY ==> 0.0 <= p.y <= MaxAppaY
    ensures !Held(keys, ArrowUp) && !Held(keys, ArrowDown) ==> p == pos
    ensures Held(keys, ArrowUp) && !Held(keys, ArrowDown) ==>
      p.y == (if pos.y >= MoveDistance then pos.y - MoveDistance else 0.0)
    ensures !Held(keys, ArrowUp) && Held(keys, ArrowDown) ==>
      p.y == (if pos.y <= MaxAppaY - MoveDistance then pos.y + MoveDistance else MaxAppaY)
    ensures Held(keys, ArrowUp) && Held(keys, ArrowDown) && MoveDistance <= pos.y <= MaxAppaY ==> p == pos
    ensures Held(keys, ArrowUp) && Held(keys, ArrowDown) && 0.0 <= pos.y < MoveDistance ==> p.y == MoveDistance
  {
    var afterUp := if Held(keys, ArrowUp) then pos.(y := Max(0.0, pos.y - MoveDistance)) else pos;
    if Held(keys, ArrowDown) then afterUp.(y := Min(MaxAppaY, afterUp.y + MoveDistance)) else afterUp
  }

  // ---------------------------------------------------------------------------
  // Spawning

  datatype Spawned = Spawned(fireballs: seq<Fireball>, lastFireballTime: real)

  /**
    Time-gated spawn: strictly more than 500 ms after the previous spawn, one
    new fireball is appended and the spawn time becomes the frame time;
    otherwise nothing changes.
   */
  function SpawnFireball(fs: seq<Fireball>, lastFireballTime: real, currentTime: real, timeElapsed: real, r: real)
    : (sp: Spawned)
    requires IsDraw(r)
    ensures fs <= sp.fireballs && |sp.fireballs| <= |fs| + 1
    ensures |sp.fireballs| == |fs| + 1 <==> currentTime - lastFireballTime > SpawnInterval
    ensures |sp.fireballs| == |fs| + 1 ==>
      && sp.lastFireballTime == currentTime
      && sp.fireballs[|fs|] == GenerateFireball(timeElapsed, r)
      && sp.fireballs[|fs|].x == CanvasWidth
      && 0.0 <= sp.fireballs[|fs|].y < CanvasHeight - FireballHeight
      && sp.fireballs[|fs|].speed == FireballSpeed(timeElapsed)
    ensures |sp.fireballs| == |fs| ==> sp.lastFireballTime == lastFireballTime
  {
    if currentTime - lastFireballTime > SpawnInterval then
      Spawned(fs + [GenerateFireball(timeElapsed, r)], currentTime)
    else
      Spawned(fs, lastFireballTime)
  }

  /** Two spawns from successive calls are always more than 500 ms apart. */
  lemma SpawnSpacing(fs: seq<Fireball>, last: real, t1: real, t2: real, e1: real, e2: real, r1: real, r2: real)
    requires IsDraw(r1) && IsDraw(r2)
    requires |SpawnFireball(fs, last, t1, e1, r1).fireballs| == |fs| + 1
    ensures var a := SpawnFireball(fs, last, t1, e1, r1);
      var b := SpawnFireball(a.fireballs, a.lastFireballTime, t2, e2, r2);
      |b.fireballs| == |a.fireballs| + 1 ==> t2 - t1 > SpawnInterval
  {
  }

  // ---------------------------------------------------------------------------
  // Fireball update

  /** A fireball survives the update while the right edge of its box is still past x = 0. */
  predicate OnScreen(f: Fireball) {
    f.x + FireballWidth > 0.0
  }

  /** The fireball after one frame of leftward motion at its own speed. */
  function Moved(f: Fireball): Fireball {
    f.(x := f.x - f.speed)
  }

  /** The filter-then-move pass: drop fireballs past the left edge, then move the rest. */
  function AdvanceFireballs(fs: seq<Fireball>): (r: seq<Fireball>)
    ensures |r| <= |fs|
  {
    if fs == [] then []
    else (if OnScreen(fs[0]) then [Moved(fs[0])] else []) + AdvanceFireballs(fs[1..])
  }

  /**
    A fireball is in the result exactly when it is the moved copy of an input
    fireball that was on screen before the move; only x changes, by the speed.
   */
  lemma {:induction false} AdvanceFireballsMembers(fs: seq<Fireball>, f: Fireball)
    ensures f in AdvanceFireballs(fs) <==>
      exists g :: g in fs && g.x + FireballWidth > 0.0 && f == Fireball(g.x - g.speed, g.y, g.speed)
  {
    if fs != [] {
      AdvanceFireballsMembers(fs[1..], f);
      assert forall g :: g in fs <==> g == fs[0] || g in fs[1..];
    }
  }

  /** The pass works fireball by fireball, so order is preserved. */
  lemma {:induction false} AdvanceFireballsAppend(a: seq<Fireball>, b: seq<Fireball>)
    ensures AdvanceFireballs(a + b) == AdvanceFireballs(a) + AdvanceFireballs(b)
  {
    if a == [] {
      assert a + b == b;
    } else {
      var head := if OnScreen(a[0]) then [Moved(a[0])] else [];
      assert (a + b)[0] == a[0];
      assert (a + b)[1..] == a[1..] + b;
      assert AdvanceFireballs(a + b) == head + AdvanceFireballs(a[1..] + b);
      AdvanceFireballsAppend(a[1..], b);
      assert head + (AdvanceFireballs(a[1..]) + AdvanceFireballs(b))
          == (head + AdvanceFireballs(a[1..])) + AdvanceFireballs(b);
    }
  }

  // ---------------------------------------------------------------------------
  // Collision

  predicate AnyCollision(pos: Position, fs: seq<Fireball>) {
    exists f :: f in fs && IsColliding(pos, f)
  }

  /**
    After the filter-then-move pass some fireball hits the sprite exactly when
    some fireball on screen before the pass hits it at its moved position.
   */
  lemma AdvanceHitIff(fs: seq<Fireball>, pos: Position)
    ensures AnyCollision(pos, AdvanceFireballs(fs)) <==>
      exists g :: g in fs && OnScreen(g) && IsColliding(pos, Moved(g))
  {
    if AnyCollision(pos, AdvanceFireballs(fs)) {
      var f :| f in AdvanceFireballs(fs) && IsColliding(pos, f);
      AdvanceFireballsMembers(fs, f);
      var g :| g in fs && g.x + FireballWidth > 0.0 && f == Fireball(g.x - g.speed, g.y, g.speed);
      assert Moved(g) == f;
    }
    if exists g :: g in fs && OnScreen(g) && IsColliding(pos, Moved(g)) {
      var g :| g in fs && OnScreen(g) && IsColliding(pos, Moved(g));
      AdvanceFireballsMembers(fs, Moved(g));
    }
  }

  /** A live fireball's height keeps its box on the canvas and its speed is one the schedule can give. */
  predicate InRange(f: Fireball) {
    0.0 <= f.y < CanvasHeight - FireballHeight && 7.0 <= f.speed <= 22.0
  }

  /** Moving keeps height and speed, so the pass keeps every fireball in range. */
  lemma AdvanceKeepsRange(fs: seq<Fireball>)
    requires forall f :: f in fs ==> InRange(f)
    ensures forall f :: f in AdvanceFireballs(fs) ==> InRange(f)
  {
    forall f | f in AdvanceFireballs(fs) ensures InRange(f) {
      AdvanceFireballsMembers(fs, f);
      var g :| g in fs && g.x + FireballWidth > 0.0 && f == Fireball(g.x - g.speed, g.y, g.speed);
    }
  }

  // ---------------------------------------------------------------------------
  // Session controller

  /** The session as first rendered: not started, no fireballs, full clock. */
  function Initial(assets: Assets): Session {
    Session(StartPos, [], assets, 0.0, 0.0, map[], false, false, GameDuration, false, false)
  }

  /** `handleStart`: a fresh running session; loaded images are kept. */
  function HandleStart(s: Session): (s': Session)
    ensures s'.appaPos == Position(50.0, 232.5)
    ensures s'.fireballs == [] && s'.lastFireballTime == 0.0 && s'.timeElapsed == 0.0 && s'.keys == map[]
    ensures s'.timeLeft == 30.0 && !s'.gameOver && !s'.levelCompleted && !s'.showCompleteModal
    ensures s'.started
    ensures s'.assets == s.assets
  {
    Session(StartPos, [], s.assets, 0.0, 0.0, map[], true, false, GameDuration, false, false)
  }

  /** The animation loop runs only for a started session that is not over. */
  predicate Running(s: Session) {
    s.started && !s.gameOver
  }

  /**
    One animation frame at time `currentTime` (ms), `dt` seconds after the
    previous one, with `r` the spawn height draw. A frame ends the session when
    a fireball hits the hit-box or when the clock runs out; in a frame where
    both happen the level counts as completed.
   */
  function Tick(s: Session, currentTime: real, dt: real, r: real): (s': Session)
    requires IsDraw(r)
    ensures !Running(s) ==> s' == s
    ensures Running(s) ==> s'.timeElapsed == s.timeElapsed + dt
    ensures Running(s) ==> s'.timeLeft >= 0.0 && s'.timeLeft == CountDown(s.timeLeft, dt).timeLeft
    ensures Running(s) ==> s'.appaPos == UpdateAppaPosition(s.appaPos, s.keys)
    ensures Running(s) ==>
      var sp := SpawnFireball(s.fireballs, s.lastFireballTime, currentTime, s.timeElapsed + dt, r);
      s'.fireballs == AdvanceFireballs(sp.fireballs) && s'.lastFireballTime == sp.lastFireballTime
    ensures Running(s) && dt >= 0.0 && s.timeLeft >= 0.0 ==> s'.timeLeft <= s.timeLeft
    ensures Running(s) ==> (s'.timeLeft == 0.0 <==> s.timeLeft - dt <= 0.0)
    ensures Running(s) ==> (s'.levelCompleted <==> s.levelCompleted || s'.timeLeft == 0.0)
    ensures Running(s) ==>
      (s'.gameOver <==> s'.timeLeft == 0.0 || exists f :: f in s'.fireballs && IsColliding(s'.appaPos, f))
    ensures Running(s) ==> (s'.showCompleteModal <==> s.showCompleteModal || s'.timeLeft == 0.0)
    ensures s'.appaPos.x == s.appaPos.x && s'.assets == s.assets && s'.keys == s.keys && s'.started == s.started
    ensures |s'.fireballs| <= |s.fireballs| + 1
  {
    if !Running(s) then s
    else
      var elapsed := s.timeElapsed + dt;
      var clock := CountDown(s.timeLeft, dt);
      var completed := s.levelCompleted || clock.expired;
      var pos := UpdateAppaPosition(s.appaPos, s.keys);
      var spawned := SpawnFireball(s.fireballs, s.lastFireballTime, currentTime, elapsed, r);
      var fs := AdvanceFireballs(spawned.fireballs);
      var hit := AnyCollision(pos, fs);
      // The level-complete effect: completed and the clock at zero.
      var finished := completed && clock.timeLeft <= 0.0;
      s.(timeElapsed := elapsed,
         timeLeft := clock.timeLeft,
         levelCompleted := completed,
         appaPos := pos,
         fireballs := fs,
         lastFireballTime := spawned.lastFireballTime,
         gameOver := hit || finished,
         showCompleteModal := s.showCompleteModal || finished)
  }

  /** The "hit by a fireball" message: over, time left, level not completed. */
  predicate Lost(s: Session) {
    s.gameOver && s.timeLeft > 0.0 && !s.levelCompleted
  }

  /**
    A running frame ends the game exactly when the clock hits zero or some
    fireball that was on screen before the move (an old one or the one just
    spawned) collides, at its moved position, with the moved sprite.
   */
  lemma TickGameOverIffHit(s: Session, currentTime: real, dt: real, r: real)
    requires IsDraw(r) && Running(s)
    ensures var s' := Tick(s, currentTime, dt, r);
      var sp := SpawnFireball(s.fireballs, s.lastFireballTime, currentTime, s.timeElapsed + dt, r);
      s'.gameOver <==> s'.timeLeft == 0.0 || exists g :: g in sp.fireballs && OnScreen(g) && IsColliding(s'.appaPos, Moved(g))
  {
    var s' := Tick(s, currentTime, dt, r);
    var sp := SpawnFireball(s.fireballs, s.lastFireballTime, currentTime, s.timeElapsed + dt, r);
    assert s'.fireballs == AdvanceFireballs(sp.fireballs);
    AdvanceHitIff(sp.fireballs, s'.appaPos);
  }

  /**
    From a valid running session, a frame shows the "hit" message exactly when
    the clock still has time left and a fireball collides with the sprite.
   */
  lemma TickLostIffHit(s: Session, currentTime: real, dt: real, r: real)
    requires IsDraw(r) && Running(s) && Valid(s)
    ensures var s' := Tick(s, currentTime, dt, r);
      Lost(s') <==> s'.timeLeft > 0.0 && exists f :: f in s'.fireballs && IsColliding(s'.appaPos, f)
  {
  }

  /**
    What every reachable session satisfies: the sprite is at x = 50 and on
    the canvas, the clock is within [0, 30], a completed level has ended the
    game, and every live fireball keeps the height and speed it spawned with.
   */
  predicate Valid(s: Session) {
    && s.appaPos.x == 50.0
    && 0.0 <= s.appaPos.y <= MaxAppaY
    && 0.0 <= s.timeLeft <= GameDuration
    && 0.0 <= s.timeElapsed
    && (s.levelCompleted ==> s.gameOver)
    && forall f :: f in s.fireballs ==> InRange(f)
  }

  lemma InitialValid(assets: Assets)
    ensures Valid(Initial(assets)) && !Initial(assets).started
  {
  }

  lemma HandleStartValid(s: Session)
    ensures Valid(HandleStart(s)) && Running(HandleStart(s))
  {
  }

  /** Ticks with non-negative frame gaps keep the session valid. */
  lemma TickPreservesValid(s: Session, currentTime: real, dt: real, r: real)
    requires IsDraw(r) && dt >= 0.0
    requires Valid(s)
    ensures Valid(Tick(s, currentTime, dt, r))
  {
    if Running(s) {
      var s' := Tick(s, currentTime, dt, r);
      var elapsed := s.timeElapsed + dt;
      var spawned := SpawnFireball(s.fireballs, s.lastFireballTime, currentTime, elapsed, r);
      assert forall g :: g in spawned.fireballs ==> InRange(g) by {
        forall g | g in spawned.fireballs ensures InRange(g) {
          assert g in s.fireballs || g == spawned.fireballs[|s.fireballs|];
        }
      }
      AdvanceKeepsRange(spawned.fireballs);
      assert s'.fireballs == AdvanceFireballs(spawned.fireballs);
    }
  }

  /** Once the session is over no frame changes it. */
  lemma GameOverIsFinal(s: Session, currentTime: real, dt: real, r: real)
    requires IsDraw(r) && s.gameOver
    ensures Tick(s, currentTime, dt, r) == s
  {
  }
}

=== FILE: connections.dfy ===
/**
  The word-grouping puzzle: sixteen words in four hidden categories of four
  are shown shuffled; the player selects up to four words and submits them,
  and a selection whose words share one category is accepted as a group.
  The shake animation after a wrong guess is presentation and not modelled.
 */
module Connections {
  import GameUtils
  import opened Sequences

  datatype Word = Word(id: int, text: string, category: string)

  const Tintin: string := "CHARACTERS FROM TINTIN"
  const Countries: string := "COUNTRIES MINUS FIRST LETTER"
  const Fruit: string := "FRUIT HOMOPHONES"
  const Hair: string := "QUALITIES OF THICK HAIR"

  const Categories: set<string> := {Tintin, Countries, Fruit, Hair}

  const InitialWords: seq<Word> := [
    Word(1, "HADDOCK", Tintin), Word(2, "SNOWY", Tintin),
    Word(3, "THOMSON", Tintin), Word(4, "THOMPSON", Tintin),
    Word(5, "PAIN", Countries), Word(6, "INLAND", Countries),
    Word(7, "RAN", Countries), Word(8, "HAD", Countries),
    Word(9, "PAIR", Fruit), Word(10, "BURY", Fruit),
    Word(11, "PLUMB", Fruit), Word(12, "CURRENT", Fruit),
    Word(13, "BODY", Hair), Word(14, "BOUNCE", Hair),
    Word(15, "LIFT", Hair), Word(16, "VOLUME", Hair)
  ]

  /** Size of a complete group, and the most words that may be selected. */
  const GroupSize: nat := 4

  // ---------------------------------------------------------------------------
  // Shuffle

  /** The Fisher-Yates index for position `i`: `Math.floor(r * (i + 1))` lies in [0, i]. */
  function PickIndex(r: real, i: nat): (j: int)
    requires GameUtils.IsDraw(r)
    ensures 0 <= j <= i
  {
    var x := r * (i + 1) as real;
    GameUtils.ScaledDraw(r, (i + 1) as real, x);
    x.Floor
  }

  /**
    `shuffleArray`: Fisher-Yates on a copy of the input, from the last
    position down to position 1; the step for position `i` uses the draw
    `draws[i]`. The input itself is a value and cannot change.
   */
  method ShuffleArray(input: seq<Word>, draws: seq<real>) returns (shuffled: seq<Word>)
    requires |draws| >= |input|
    requires forall k :: 0 <= k < |draws| ==> GameUtils.IsDraw(draws[k])
    ensures |shuffled| == |input|
    ensures multiset(shuffled) == multiset(input)
  {
    shuffled := input;
    var i := |shuffled| - 1;
    while i > 0
      invariant -1 <= i < |input|
      invariant |shuffled| == |input|
      invariant multiset(shuffled) == multiset(input)
      decreases i
    {
      var j := PickIndex(draws[i], i);
      shuffled := Swap(shuffled, i, j);
      i := i - 1;
    }
  }

  // ---------------------------------------------------------------------------
  // Filters

  /** Deselection: keeps, in order, every entry whose id differs from the given one. */
  function WithoutId(s: seq<Word>, id: int): (r: seq<Word>)
    ensures |r| <= |s|
    ensures forall w :: w in r <==> w in s && w.id != id
  {
    if s == [] then []
    else (if s[0].id != id then [s[0]] else []) + WithoutId(s[1..], id)
  }

  /** Removal of an accepted group: keeps, in order, every word that is not selected. */
  function RemoveSelected(words: seq<Word>, selected: seq<Word>): (r: seq<Word>)
    ensures |r| <= |words|
    ensures forall w :: w in r <==> w in words && w !in selected
  {
    if words == [] then []
    else (if words[0] !in selected then [words[0]] else []) + RemoveSelected(words[1..], selected)
  }

  /** `remainingWords`: the words whose category has not been found yet, in order. */
  function RemainingWords(words: seq<Word>, found: seq<string>): (r: seq<Word>)
    ensures |r| <= |words|
    ensures forall w :: w in r <==> w in words && w.category !in found
  {
    if words == [] then []
    else (if words[0].category !in found then [words[0]] else []) + RemainingWords(words[1..], found)
  }

  // ---------------------------------------------------------------------------
  // Puzzle state

  datatype Message = NoMessage | SelectFour | Correct(category: string) | AllFound | Incorrect

  datatype Puzzle = Puzzle(words: seq<Word>, selected: seq<Word>, found: seq<string>, message: Message)

  /** The puzzle as first shown, over some arrangement of the sixteen words. */
  function Start(words: seq<Word>): Puzzle {
    Puzzle(words, [], [], NoMessage)
  }

  /**
    `handleWordClick`: a selected word is deselected (every entry with its id
    goes); an unselected one is appended while fewer than four are selected.
   */
  function ToggleWord(selected: seq<Word>, word: Word): (r: seq<Word>)
    ensures word in selected ==> forall w :: w in r <==> w in selected && w.id != word.id
    ensures word !in selected && |selected| < GroupSize ==> r == selected + [word]
    ensures word !in selected && |selected| >= GroupSize ==> r == selected
    ensures |selected| <= GroupSize ==> |r| <= GroupSize
    ensures word in r <==> word !in selected && |selected| < GroupSize
  {
    if word in selected then WithoutId(selected, word.id)
    else if |selected| < GroupSize then selected + [word]
    else selected
  }

  /** `handleWordClick`: only the selection changes. */
  function HandleWordClick(p: Puzzle, word: Word): (p': Puzzle)
    ensures p'.(selected := p.selected) == p
    ensures word in p'.selected <==> word !in p.selected && |p.selected| < GroupSize
  {
    p.(selected := ToggleWord(p.selected, word))
  }

  predicate AllSameCategory(selected: seq<Word>, category: string) {
    forall k :: 0 <= k < |selected| ==> selected[k].category == category
  }

  /**
    `handleSubmit`: anything but four selected words only sets a message; four
    words of one category are accepted (category recorded, words removed,
    selection cleared); four mixed words are rejected with a message.
   */
  function HandleSubmit(p: Puzzle): (p': Puzzle)
    ensures |p.selected| != GroupSize ==> p' == p.(message := SelectFour)
    ensures |p.selected| == GroupSize && !AllSameCategory(p.selected, p.selected[0].category) ==>
      p' == p.(message := Incorrect)
    ensures |p.selected| == GroupSize && AllSameCategory(p.selected, p.selected[0].category) ==>
      && p'.found == p.found + [p.selected[0].category]
      && (forall w :: w in p'.words <==> w in p.words && w !in p.selected)
      && p'.selected == []
      && p'.words == RemoveSelected(p.words, p.selected)
      && (|p.found| != 3 ==> p'.message == Correct(p.selected[0].category))
    ensures p'.message == AllFound <==>
      |p.selected| == GroupSize && AllSameCategory(p.selected, p.selected[0].category) && |p.found| == 3
  {
    if |p.selected| != GroupSize then p.(message := SelectFour)
    else
      var category := p.selected[0].category;
      if AllSameCategory(p.selected, category) then
        Puzzle(RemoveSelected(p.words, p.selected), [], p.found + [category],
               if |p.found| == 3 then AllFound else Correct(category))
      else
        p.(message := Incorrect)
  }

  /** The claim-prize button is shown exactly when four categories have been found. */
  predicate ClaimVisible(p: Puzzle) {
    |p.found| == 4
  }

  // ---------------------------------------------------------------------------
  // Reachable states

  /**
    What every puzzle reached by clicks on shown words and submits satisfies:
    every word belongs to one of the four categories, the selection holds at most four distinct
    shown words, and every found category is one of the four and found once.
   */
  predicate Valid(p: Puzzle) {
    && (forall w :: w in p.words ==> w.category in Categories)
    && |p.selected| <= GroupSize
    && NoDuplicates(p.selected)
    && (forall w :: w in p.selected ==> w in p.words && w.category !in p.found)
    && NoDuplicates(p.found)
    && (forall c :: c in p.found ==> c in Categories)
  }

  lemma InitialWordsCategories()
    ensures forall w :: w in InitialWords ==> w.category in Categories
  {
  }

  lemma StartValid(words: seq<Word>)
    requires forall w :: w in words ==> w in InitialWords
    ensures Valid(Start(words))
  {
    InitialWordsCategories();
  }

  /** Clicking a shown word keeps the puzzle valid; the selection never exceeds four. */
  lemma ClickPreservesValid(p: Puzzle, word: Word)
    requires Valid(p)
    requires word in RemainingWords(p.words, p.found)
    ensures Valid(HandleWordClick(p, word))
  {
    var r := ToggleWord(p.selected, word);
    if word in p.selected {
      WithoutIdNoDuplicates(p.selected, word.id);
    }
  }

  lemma {:induction false} WithoutIdNoDuplicates(s: seq<Word>, id: int)
    requires NoDuplicates(s)
    ensures NoDuplicates(WithoutId(s, id))
  {
    if s != [] {
      WithoutIdNoDuplicates(s[1..], id);
      var rest := WithoutId(s[1..], id);
      assert s[0] !in s[1..];
      assert s[0] !in rest;
    }
  }

  lemma {:induction false} SubmitPreservesValid(p: Puzzle)
    requires Valid(p)
    ensures Valid(HandleSubmit(p))
  {
    if |p.selected| == GroupSize && AllSameCategory(p.selected, p.selected[0].category) {
      var c := p.selected[0].category;
      assert p.selected[0] in p.selected;
      var p' := HandleSubmit(p);
      assert p'.found == p.found + [c];
      assert c !in p.found;
    }
  }

  /** A distinct sequence of categories has at most as many entries as there are categories. */
  lemma {:induction false} DistinctCategoriesBound(found: seq<string>, cats: set<string>)
    requires NoDuplicates(found)
    requires forall c :: c in found ==> c in cats
    ensures |found| <= |cats|
    ensures |found| == |cats| ==> forall c :: c in cats ==> c in found
  {
    if found != [] {
      var c := found[|found| - 1];
      var init := found[..|found| - 1];
      var rest := cats - {c};
      assert found == init + [c];
      assert NoDuplicates(init);
      assert c !in init;
      assert forall d :: d in init ==> d in rest;
      DistinctCategoriesBound(init, rest);
      assert c in cats;
      assert |rest| == |cats| - 1;
    }
  }

  /** In a valid puzzle at most four categories are found, and the prize button means all four are. */
  lemma FoundAtMostFour(p: Puzzle)
    requires Valid(p)
    ensures |p.found| <= 4
    ensures ClaimVisible(p) ==> (set c | c in p.found) == Categories
  {
    assert |Categories| == 4;
    DistinctCategoriesBound(p.found, Categories);
    if ClaimVisible(p) {
      assert (set c | c in p.found) == Categories;
    }
  }
}

=== FILE: find_the_queen.dfy ===
/**
  The card-shuffle game: three cards, one queen and two aces, are shown, turned
  face down and shuffled by fifteen adjacent swaps; the player then picks the
  queen. Three stages, each shuffling faster; a correct pick at the last stage
  completes the level.

  Every `setTimeout` is modelled as an immediate transition. Starting a
  shuffle and finishing it are two transitions so that clicks in between are
  visible as ignored. The random draw of each swap is explicit.
 */
module FindTheQueen {
  import GameUtils
  import opened Sequences
  import opened Wrappers

  datatype Card = Queen | Ace

  datatype CardPosition = CardPosition(x: real, y: real)

  const StartCards: seq<Card> := [Queen, Ace, Ace]
  const StartPositions: seq<CardPosition> := [CardPosition(-220.0, 0.0), CardPosition(0.0, 0.0), CardPosition(220.0, 0.0)]
  const LastStage: int := 3
  /** Swaps per shuffle. */
  const Moves: nat := 15
  /** Delay between turning the cards over and the first swap, in milliseconds. */
  const FlipDelay: nat := 500

  datatype Table = Table(
    cards: seq<Card>,
    isShuffling: bool,
    stage: int,
    selectedCard: Option<nat>,
    showResult: bool,
    positions: seq<CardPosition>,
    showBack: bool,
    showCompleteModal: bool)

  function Initial(): Table {
    Table(StartCards, false, 1, None, false, StartPositions, false, false)
  }

  /** `getShuffleSpeed`: milliseconds between swaps for a stage. */
  function ShuffleSpeed(stage: int): (ms: nat)
    ensures ms == (if stage == 2 then 700 else if stage == 3 then 400 else 1000)
  {
    match stage
    case 1 => 1000
    case 2 => 700
    case 3 => 400
    case _ => 1000
  }

  /** Later stages shuffle strictly faster. */
  lemma ShuffleSpeedDecreasing(s1: int, s2: int)
    requires 1 <= s1 < s2 <= LastStage
    ensures ShuffleSpeed(s1) > ShuffleSpeed(s2)
  {
  }

  // ---------------------------------------------------------------------------
  // Schedule

  /** When swap `i` fires, in milliseconds after the shuffle starts. */
  function StepTime(speed: nat, i: nat): nat {
    FlipDelay + i * speed
  }

  /** When the shuffle is reported done, in milliseconds after it starts. */
  function DoneTime(speed: nat): nat {
    FlipDelay + Moves * speed
  }

  /** The done transition fires one interval after the last swap and after every swap. */
  lemma DoneAfterLastSwap(speed: nat)
    requires speed > 0
    ensures DoneTime(speed) == StepTime(speed, Moves - 1) + speed
    ensures forall i :: 0 <= i < Moves ==> StepTime(speed, i) < DoneTime(speed)
  {
    forall i | 0 <= i < Moves
      ensures StepTime(speed, i) < DoneTime(speed)
    {
      assert i * speed < Moves * speed;
    }
  }

  // ---------------------------------------------------------------------------
  // Shuffle

  /** The left slot of the adjacent pair to swap: twice the draw, rounded down, so 0 or 1. */
  function SwapIndex(r: real): (idx1: nat)
    requires GameUtils.IsDraw(r)
    ensures idx1 <= 1
  {
    var x := r * 2.0;
    GameUtils.ScaledDraw(r, 2.0, x);
    x.Floor
  }

  predicate ValidDraws(draws: seq<real>) {
    forall k :: 0 <= k < |draws| ==> GameUtils.IsDraw(draws[k])
  }

  datatype Frame = Frame(cards: seq<Card>, positions: seq<CardPosition>)

  /**
    One scheduled swap: the positions are swapped from the previous swap's,
    but the cards are swapped from the cards captured when the shuffle began.
   */
  function ShuffleStep(captured: seq<Card>, f: Frame, r: real): (f': Frame)
    requires GameUtils.IsDraw(r) && |captured| == 3 && |f.positions| == 3
    ensures f'.cards == Swap(captured, 0, 1) || f'.cards == Swap(captured, 1, 2)
    ensures |f'.positions| == 3 && multiset(f'.positions) == multiset(f.positions)
    ensures var i := SwapIndex(r);
      f'.cards == Swap(captured, i, i + 1) && f'.positions == Swap(f.positions, i, i + 1)
  {
    var i := SwapIndex(r);
    Frame(Swap(captured, i, i + 1), Swap(f.positions, i, i + 1))
  }

  /** The swaps in scheduled order, one per draw. */
  function RunSteps(captured: seq<Card>, f: Frame, draws: seq<real>): (f': Frame)
    requires ValidDraws(draws) && |captured| == 3 && |f.positions| == 3
    ensures |f'.positions| == 3 && multiset(f'.positions) == multiset(f.positions)
    ensures draws == [] ==> f' == f
    ensures draws != [] ==>
      var i := SwapIndex(draws[|draws| - 1]);
      f'.cards == Swap(captured, i, i + 1)
    decreases |draws|
  {
    if draws == [] then f
    else
      TailDraws(draws);
      var rest := draws[1..];
      assert rest != [] ==> rest[|rest| - 1] == draws[|draws| - 1];
      RunSteps(captured, ShuffleStep(captured, f, draws[0]), rest)
  }

  lemma TailDraws(draws: seq<real>)
    requires ValidDraws(draws) && draws != []
    ensures ValidDraws(draws[1..])
  {
    forall k | 0 <= k < |draws| - 1 ensures GameUtils.IsDraw(draws[1..][k]) {
      assert draws[1..][k] == draws[k + 1];
    }
  }

  /** One scheduled swap, then the rest: the positions take the drawn adjacent swap. */
  lemma RunStepsUnfold(captured: seq<Card>, f: Frame, draws: seq<real>)
    requires ValidDraws(draws) && |captured| == 3 && |f.positions| == 3 && draws != []
    ensures ValidDraws(draws[1..])
    ensures var f' := ShuffleStep(captured, f, draws[0]);
      && f'.positions == Swap(f.positions, SwapIndex(draws[0]), SwapIndex(draws[0]) + 1)
      && RunSteps(captured, f, draws) == RunSteps(captured, f', draws[1..])
  {
    TailDraws(draws);
  }

  // ---------------------------------------------------------------------------
  // Parity of the shuffled positions

  /** `p` holds the slots of `b` in the order `b[i], b[j], b[k]`. */
  predicate InOrder(p: seq<CardPosition>, b: seq<CardPosition>, i: nat, j: nat, k: nat)
    requires |p| == 3 && |b| == 3 && i < 3 && j < 3 && k < 3
  {
    p[0] == b[i] && p[1] == b[j] && p[2] == b[k]
  }

  /** The three arrangements of `b` reachable by an even number of adjacent swaps: the rotations. */
  predicate EvenArrangement(p: seq<CardPosition>, b: seq<CardPosition>)
    requires |p| == 3 && |b| == 3
  {
    InOrder(p, b, 0, 1, 2) || InOrder(p, b, 1, 2, 0) || InOrder(p, b, 2, 0, 1)
  }

  /** The three arrangements of `b` reachable by an odd number of adjacent swaps: the transpositions. */
  predicate OddArrangement(p: seq<CardPosition>, b: seq<CardPosition>)
    requires |p| == 3 && |b| == 3
  {
    InOrder(p, b, 1, 0, 2) || InOrder(p, b, 0, 2, 1) || InOrder(p, b, 2, 1, 0)
  }

  predicate Arrangement(p: seq<CardPosition>, b: seq<CardPosition>, odd: bool)
    requires |p| == 3 && |b| == 3
  {
    if odd then OddArrangement(p, b) else EvenArrangement(p, b)
  }

  /** An adjacent swap of three slots turns an even arrangement into an odd one and back. */
  lemma SwapFlipsParity(p: seq<CardPosition>, b: seq<CardPosition>, i: nat, odd: bool)
    requires |p| == 3 && |b| == 3 && i <= 1
    requires Arrangement(p, b, odd)
    ensures Arrangement(Swap(p, i, i + 1), b, !odd)
  {
    var q := Swap(p, i, i + 1);
    if i == 0 {
      assert q[0] == p[1] && q[1] == p[0] && q[2] == p[2];
    } else {
      assert q[0] == p[0] && q[1] == p[2] && q[2] == p[1];
    }
  }

  /** Whether `n` is odd, by counting down, so that proofs need no modular arithmetic. */
  predicate IsOdd(n: nat) {
    n != 0 && !IsOdd(n - 1)
  }

  /**
    The positions alone after the scheduled swaps: each draw swaps the
    adjacent pair it picks. A reference for what `RunSteps` does to the slots.
   */
  function SwapAll(p: seq<CardPosition>, draws: seq<real>): (q: seq<CardPosition>)
    requires ValidDraws(draws) && |p| == 3
    ensures |q| == 3
    decreases |draws|
  {
    if draws == [] then p
    else
      TailDraws(draws);
      var i := SwapIndex(draws[0]);
      SwapAll(Swap(p, i, i + 1), draws[1..])
  }

  /** The scheduled steps move the slots exactly as the reference does. */
  lemma {:induction false} RunStepsPositions(captured: seq<Card>, f: Frame, draws: seq<real>)
    requires ValidDraws(draws) && |captured| == 3 && |f.positions| == 3
    ensures RunSteps(captured, f, draws).positions == SwapAll(f.positions, draws)
    decreases |draws|
  {
    if draws != [] {
      RunStepsUnfold(captured, f, draws);
      RunStepsPositions(captured, ShuffleStep(captured, f, draws[0]), draws[1..]);
    }
  }

  /** Counting down agrees with the remainder by two. */
  lemma {:induction false} IsOddIsRemainder(n: nat)
    ensures IsOdd(n) <==> n % 2 == 1
  {
    if n > 0 {
      IsOddIsRemainder(n - 1);
    }
  }

  /** Each swap flips the parity, so after `n` swaps it has flipped `n` times. */
  lemma {:induction false} SwapAllParity(p: seq<CardPosition>, draws: seq<real>, b: seq<CardPosition>, odd: bool)
    requires ValidDraws(draws) && |p| == 3 && |b| == 3
    requires Arrangement(p, b, odd)
    ensures Arrangement(SwapAll(p, draws), b, odd != IsOdd(|draws|))
    decreases |draws|
  {
    if draws != [] {
      var i := SwapIndex(draws[0]);
      SwapFlipsParity(p, b, i, odd);
      TailDraws(draws);
      SwapAllParity(Swap(p, i, i + 1), draws[1..], b, !odd);
      assert IsOdd(|draws|) == !IsOdd(|draws[1..]|);
    }
  }

  /** Three distinct slots: an odd arrangement is never the starting one. */
  lemma OddArrangementMoves(p: seq<CardPosition>, b: seq<CardPosition>)
    requires |p| == 3 && |b| == 3 && NoDuplicates(b)
    requires OddArrangement(p, b)
    ensures p != b
  {
    assert b[0] != b[1] && b[1] != b[2] && b[0] != b[2];
  }

  /** `startShuffle`: cards face down, selection and result cleared, shuffling begins. */
  function StartShuffle(t: Table): (t': Table)
    ensures t'.isShuffling && t'.showBack && t'.selectedCard == None && !t'.showResult
    ensures t'.cards == t.cards && t'.positions == t.positions && t'.stage == t.stage
    ensures t'.showCompleteModal == t.showCompleteModal
    ensures t'.(isShuffling := t.isShuffling, selectedCard := t.selectedCard, showResult := t.showResult, showBack := t.showBack) == t
  {
    t.(isShuffling := true, selectedCard := None, showResult := false, showBack := true)
  }

  /**
    All fifteen swaps of a shuffle and the done transition. The final cards
    are the captured cards with a single adjacent swap, the last one drawn;
    the positions went through all fifteen swaps.
   */
  function FinishShuffle(t: Table, draws: seq<real>): (t': Table)
    requires t.isShuffling
    requires |draws| == Moves && ValidDraws(draws)
    requires |t.cards| == 3 && |t.positions| == 3
    ensures !t'.isShuffling
    ensures t'.cards == Swap(t.cards, 0, 1) || t'.cards == Swap(t.cards, 1, 2)
    ensures t'.cards == Swap(t.cards, SwapIndex(draws[Moves - 1]), SwapIndex(draws[Moves - 1]) + 1)
    ensures |t'.positions| == 3 && multiset(t'.positions) == multiset(t.positions)
    ensures t'.stage == t.stage && t'.showBack == t.showBack && t'.selectedCard == t.selectedCard
    ensures t'.showResult == t.showResult && t'.showCompleteModal == t.showCompleteModal
  {
    var f := RunSteps(t.cards, Frame(t.cards, t.positions), draws);
    t.(cards := f.cards, positions := f.positions, isShuffling := false)
  }

  /**
    Fifteen adjacent swaps make an odd permutation, so when the three slots
    are distinct a finished shuffle never leaves them where they started.
   */
  lemma ShuffleMovesPositions(t: Table, draws: seq<real>)
    requires t.isShuffling
    requires |draws| == Moves && ValidDraws(draws)
    requires |t.cards| == 3 && |t.positions| == 3
    requires NoDuplicates(t.positions)
    ensures FinishShuffle(t, draws).positions != t.positions
  {
    var f := RunSteps(t.cards, Frame(t.cards, t.positions), draws);
    assert FinishShuffle(t, draws).positions == f.positions;
    RunStepsPositions(t.cards, Frame(t.cards, t.positions), draws);
    IsOddIsRemainder(Moves);
    SwapAllParity(t.positions, draws, t.positions, false);
    OddArrangementMoves(f.positions, t.positions);
  }

  /** In every valid table the three slots are distinct, so every shuffle moves them. */
  lemma ValidShuffleMovesPositions(t: Table, draws: seq<real>)
    requires Valid(t) && t.isShuffling
    requires |draws| == Moves && ValidDraws(draws)
    ensures FinishShuffle(t, draws).positions != t.positions
  {
    var p := t.positions;
    assert p == [p[0], p[1], p[2]];
    assert multiset(StartPositions) == multiset{CardPosition(-220.0, 0.0), CardPosition(0.0, 0.0), CardPosition(220.0, 0.0)};
    assert multiset(p) == multiset{p[0], p[1], p[2]};
    assert p[0] != p[1] && p[1] != p[2] && p[0] != p[2] by {
      if p[0] == p[1] || p[1] == p[2] || p[0] == p[2] {
        assert false;
      }
    }
    ShuffleMovesPositions(t, draws);
  }

  // ---------------------------------------------------------------------------
  // Picking

  /**
    `handleCardClick` with its delayed follow-ups applied at once: ignored
    while shuffling; the queen before the last stage advances the stage and
    resets the table; the queen at the last stage opens the completion modal;
    a wrong card clears the selection for another try.
   */
  function HandleCardClick(t: Table, index: nat): (t': Table)
    requires index < |t.cards|
    ensures t.isShuffling ==> t' == t
    ensures !t.isShuffling && t.cards[index] == Queen && t.stage < LastStage ==>
      && t'.stage == t.stage + 1
      && t'.positions == [CardPosition(-220.0, 0.0), CardPosition(0.0, 0.0), CardPosition(220.0, 0.0)]
      && t'.selectedCard == None && !t'.showResult && !t'.showBack
      && t' == t.(stage := t.stage + 1, selectedCard := None, showResult := false,
                  positions := StartPositions, showBack := false)
    ensures !t.isShuffling && t.cards[index] == Queen && t.stage >= LastStage ==>
      t' == t.(selectedCard := Some(index), showResult := true, showCompleteModal := true)
    ensures !t.isShuffling && t.cards[index] == Ace ==>
      t' == t.(selectedCard := None, showResult := false)
    ensures t'.cards == t.cards
    ensures t'.showCompleteModal <==> t.showCompleteModal || (!t.isShuffling && t.cards[index] == Queen && t.stage >= LastStage)
  {
    if t.isShuffling then t
    else if t.cards[index] == Queen then
      if t.stage < LastStage then
        t.(stage := t.stage + 1, selectedCard := None, showResult := false,
           positions := StartPositions, showBack := false)
      else
        t.(selectedCard := Some(index), showResult := true, showCompleteModal := true)
    else
      t.(selectedCard := None, showResult := false)
  }

  // ---------------------------------------------------------------------------
  // Reachable states

  /**
    Every reachable table: three cards with exactly one queen, the three
    start positions in some order, and a stage between 1 and 3.
   */
  predicate Valid(t: Table) {
    && |t.cards| == 3
    && multiset(t.cards) == multiset(StartCards)
    && |t.positions| == 3
    && multiset(t.positions) == multiset(StartPositions)
    && 1 <= t.stage <= LastStage
  }

  /** A valid table holds exactly one queen. */
  lemma ValidHasOneQueen(t: Table)
    requires Valid(t)
    ensures multiset(t.cards)[Queen] == 1
    ensures exists i :: 0 <= i < 3 && t.cards[i] == Queen
  {
    assert multiset(StartCards)[Queen] == 1;
  }

  lemma InitialValid()
    ensures Valid(Initial())
  {
  }

  lemma StartShufflePreservesValid(t: Table)
    requires Valid(t)
    ensures Valid(StartShuffle(t))
  {
  }

  lemma FinishShufflePreservesValid(t: Table, draws: seq<real>)
    requires Valid(t) && t.isShuffling
    requires |draws| == Moves && ValidDraws(draws)
    ensures Valid(FinishShuffle(t, draws))
  {
  }

  /** Clicks keep the table valid, so the stage never goes past 3. */
  lemma ClickPreservesValid(t: Table, index: nat)
    requires Valid(t) && index < 3
    ensures Valid(HandleCardClick(t, index))
  {
  }
}

=== FILE: game_utils.dfy ===
/**
  Shared geometry of the arcade mini-game: playfield and sprite constants,
  the shrunken player hit-box collision test, the time-scaled fireball
  generator and the strict target-containment test.

  Coordinates are canvas pixels with the origin at the top-left corner and
  the y axis pointing down. `Math.random()` is replaced by an explicit draw
  `r` in [0, 1).
 */
module GameUtils {

  const CanvasWidth: real := 700.0
  const CanvasHeight: real := 525.0
  const AppaWidth: real := 120.0
  const AppaHeight: real := 60.0
  const AppaHitboxReduction: real := 0.4
  const FireballWidth: real := 80.0
  const FireballHeight: real := 40.0
  /** Length of one dodging session, in seconds. */
  const GameDuration: real := 30.0

  datatype Position = Position(x: real, y: real)

  datatype Fireball = Fireball(x: real, y: real, speed: real)

  /** An axis-aligned rectangle: top-left corner and extent. */
  datatype Box = Box(x: real, y: real, w: real, h: real)

  /** A random draw, as `Math.random()` produces it. */
  predicate IsDraw(r: real) {
    0.0 <= r < 1.0
  }

  /** A draw scaled to a positive width lands in [0, width). */
  lemma ScaledDraw(r: real, width: real, x: real)
    requires IsDraw(r) && width > 0.0 && x == r * width
    ensures 0.0 <= x < width
  {
    assert width - x == (1.0 - r) * width;
    assert (1.0 - r) * width > 0.0;
  }

  /** Open-interval overlap: boxes that only share an edge do not overlap. */
  predicate Overlaps(a: Box, b: Box) {
    && a.x < b.x + b.w
    && a.x + a.w > b.x
    && a.y < b.y + b.h
    && a.y + a.h > b.y
  }

  // The reduced hit-box, computed as the source does from the reduction factor.
  const HitboxWidth: real := AppaWidth * (1.0 - AppaHitboxReduction)
  const HitboxHeight: real := AppaHeight * (1.0 - AppaHitboxReduction)
  const HitboxOffsetX: real := (AppaWidth - HitboxWidth) / 2.0
  const HitboxOffsetY: real := (AppaHeight - HitboxHeight) / 2.0

  /** The forgiving hit-box of the player sprite whose top-left corner is `p`. */
  function AppaHitbox(p: Position): (b: Box)
    ensures b.w == 72.0 && b.h == 36.0
    ensures b.x == p.x + 24.0 && b.y == p.y + 12.0
  {
    Box(p.x + HitboxOffsetX, p.y + HitboxOffsetY, HitboxWidth, HitboxHeight)
  }

  /** The full 120 x 60 sprite rectangle of the player. */
  function AppaSprite(p: Position): Box {
    Box(p.x, p.y, AppaWidth, AppaHeight)
  }

  function FireballBox(f: Fireball): Box {
    Box(f.x, f.y, FireballWidth, FireballHeight)
  }

  /** `isColliding`: the four strict edge comparisons of the reduced hit-box against the fireball. */
  predicate IsColliding(appaPos: Position, fireball: Fireball) {
    && appaPos.x + HitboxOffsetX < fireball.x + FireballWidth
    && appaPos.x + HitboxOffsetX + HitboxWidth > fireball.x
    && appaPos.y + HitboxOffsetY < fireball.y + FireballHeight
    && appaPos.y + HitboxOffsetY + HitboxHeight > fireball.y
  }

  /** The hit-box is centred in the sprite and strictly smaller than it on both axes. */
  lemma HitboxCentredInSprite(p: Position)
    ensures var hb, sp := AppaHitbox(p), AppaSprite(p);
      && hb.w < sp.w && hb.h < sp.h
      && hb.x - sp.x == (sp.x + sp.w) - (hb.x + hb.w)
      && hb.y - sp.y == (sp.y + sp.h) - (hb.y + hb.h)
      && sp.x < hb.x && sp.y < hb.y
  {
  }

  /** `isColliding` is exactly open-box overlap of the hit-box with the fireball box. */
  lemma CollidingIsHitboxOverlap(p: Position, f: Fireball)
    ensures IsColliding(p, f) <==> Overlaps(AppaHitbox(p), FireballBox(f))
  {
  }

  lemma OverlapsSymmetric(a: Box, b: Box)
    ensures Overlaps(a, b) <==> Overlaps(b, a)
  {
  }

  /** A box that lies inside another overlaps everything the inner one overlaps. */
  lemma OverlapsWidens(inner: Box, outer: Box, other: Box)
    requires outer.x <= inner.x && inner.x + inner.w <= outer.x + outer.w
    requires outer.y <= inner.y && inner.y + inner.h <= outer.y + outer.h
    requires Overlaps(inner, other)
    ensures Overlaps(outer, other)
  {
  }

  /** A hit by the reduced hit-box is also a hit on the full sprite. */
  lemma CollisionImpliesSpriteOverlap(p: Position, f: Fireball)
    requires IsColliding(p, f)
    ensures Overlaps(AppaSprite(p), FireballBox(f))
  {
    CollidingIsHitboxOverlap(p, f);
    OverlapsWidens(AppaHitbox(p), AppaSprite(p), FireballBox(f));
  }

  /** A fireball box that only touches one edge of the hit-box does not collide. */
  lemma EdgeContactIsNoCollision(p: Position, f: Fireball)
    requires f.x == p.x + HitboxOffsetX + HitboxWidth
      || f.x + FireballWidth == p.x + HitboxOffsetX
      || f.y == p.y + HitboxOffsetY + HitboxHeight
      || f.y + FireballHeight == p.y + HitboxOffsetY
    ensures !IsColliding(p, f)
  {
  }

  /** Shifting the player and the fireball by the same vector does not change the outcome. */
  lemma CollisionTranslationInvariant(p: Position, f: Fireball, dx: real, dy: real)
    ensures IsColliding(Position(p.x + dx, p.y + dy), Fireball(f.x + dx, f.y + dy, f.speed))
        <==> IsColliding(p, f)
  {
  }

  function Min(a: real, b: real): real {
    if a < b then a else b
  }

  function Max(a: real, b: real): real {
    if a > b then a else b
  }

  /** Fireball speed grows by one per five seconds elapsed, capped at 15 above the base 7. */
  function FireballSpeed(timeElapsed: real): (speed: real)
    ensures timeElapsed >= 0.0 ==> 7.0 <= speed <= 22.0
    ensures timeElapsed >= 75.0 ==> speed == 22.0
    ensures timeElapsed <= 75.0 ==> speed == 7.0 + timeElapsed / 5.0
  {
    7.0 + Min(timeElapsed / 5.0, 15.0)
  }

  lemma FireballSpeedMonotone(t1: real, t2: real)
    requires t1 <= t2
    ensures FireballSpeed(t1) <= FireballSpeed(t2)
  {
  }

  /** `generateFireball`: enters at the right edge at a random height that keeps it on the canvas. */
  function GenerateFireball(timeElapsed: real, r: real): (f: Fireball)
    requires IsDraw(r)
    ensures f.x == CanvasWidth
    ensures 0.0 <= f.y < CanvasHeight - FireballHeight && CanvasHeight - FireballHeight == 485.0
    ensures f.y == r * 485.0
    ensures f.speed == FireballSpeed(timeElapsed)
  {
    Fireball(CanvasWidth, r * (CanvasHeight - FireballHeight), FireballSpeed(timeElapsed))
  }

  const TargetX: real := 650.0
  const TargetY: real := 275.0
  const TargetSize: real := 50.0
  const PlayerSize: real := 20.0

  /** `isAtTarget`: the player's 20-square lies strictly inside the 50-square target. */
  predicate IsAtTarget(playerPos: Position) {
    && playerPos.x > TargetX
    && playerPos.x + PlayerSize < TargetX + TargetSize
    && playerPos.y > TargetY
    && playerPos.y + PlayerSize < TargetY + TargetSize
  }

  lemma IsAtTargetRange(p: Position)
    ensures IsAtTarget(p) <==> (650.0 < p.x < 680.0 && 275.0 < p.y < 305.0)
  {
  }

  /** Being at the target means the player's square is strictly inside the target square. */
  lemma AtTargetIsStrictContainment(p: Position)
    requires IsAtTarget(p)
    ensures var inner, zone := Box(p.x, p.y, PlayerSize, PlayerSize), Box(TargetX, TargetY, TargetSize, TargetSize);
      zone.x < inner.x && inner.x + inner.w < zone.x + zone.w
      && zone.y < inner.y && inner.y + inner.h < zone.y + zone.h
  {
  }

  /** Result of one countdown step: the new time left and whether it ran out. */
  datatype Countdown = Countdown(timeLeft: real, expired: bool)

  /**
    The `setTimeLeft` updater shared by both arcade games: subtract the frame's
    elapsed seconds; at or below zero the clock stops at exactly zero and the
    expiry is reported.
   */
  function CountDown(prev: real, dt: real): (c: Countdown)
    ensures c.timeLeft >= 0.0
    ensures c.expired <==> prev - dt <= 0.0
    ensures c.expired <==> c.timeLeft == 0.0
    ensures !c.expired ==> c.timeLeft == prev - dt
    ensures prev >= 0.0 && dt >= 0.0 ==> c.timeLeft <= prev
  {
    var newTime := prev - dt;
    if newTime <= 0.0 then Countdown(0.0, true) else Countdown(newTime, false)
  }
}

=== FILE: heart_catcher.dfy ===
/**
  The heart-catching game: a basket follows the pointer along the bottom of
  an 800 x 600 canvas while hearts of random size, speed and value fall from
  above; caught hearts add their points to the score, and when the 30-second
  clock runs out the level is complete if the score reached 500.

  One animation frame is one `Tick`, in this fixed order: countdown (with the
  win check on the score held before this frame), spawn, then fall, catch and
  prune of every heart. The four `Math.random()` draws of a spawn are explicit.
 */
module HeartCatcher {
  import GameUtils

  const CanvasWidth: real := 800.0
  const CanvasHeight: real := 600.0
  const BasketWidth: real := 100.0
  const BasketHeight: real := 50.0
  const HeartSizeMin: real := 20.0
  const HeartSizeMax: real := 40.0
  const GameDuration: real := 30.0
  const ScoreToWin: int := 500
  /** Minimum gap between two heart spawns, in milliseconds (exclusive). */
  const SpawnInterval: real := 500.0

  datatype Heart = Heart(x: real, y: real, size: real, speed: real, points: int)

  datatype Session = Session(
    basketX: real,
    hearts: seq<Heart>,
    lastHeartTime: real,
    started: bool,
    gameOver: bool,
    score: int,
    timeLeft: real,
    /** How often this session has called the level-completion notifier. */
    notifications: nat)

  // ---------------------------------------------------------------------------
  // Pointer input

  /** `handleMouseMove`: centre the basket on the pointer, kept fully on the canvas. */
  function BasketX(pointerX: real): (b: real)
    ensures 0.0 <= b <= CanvasWidth - BasketWidth
    ensures BasketWidth / 2.0 <= pointerX <= CanvasWidth - BasketWidth / 2.0 ==> b == pointerX - BasketWidth / 2.0
    ensures pointerX < BasketWidth / 2.0 ==> b == 0.0
    ensures pointerX > CanvasWidth - BasketWidth / 2.0 ==> b == CanvasWidth - BasketWidth
  {
    GameUtils.Max(0.0, GameUtils.Min(pointerX - BasketWidth / 2.0, CanvasWidth - BasketWidth))
  }

  /** The pointer listener exists only while the game loop runs. */
  function MouseMove(s: Session, pointerX: real): (s': Session)
    ensures Running(s) ==> s' == s.(basketX := BasketX(pointerX))
    ensures !Running(s) ==> s' == s
  {
    if Running(s) then s.(basketX := BasketX(pointerX)) else s
  }

  // ---------------------------------------------------------------------------
  // Spawning

  /** The four random draws of one spawn, in the order the source makes them. */
  datatype Draws = Draws(size: real, x: real, speed: real, bonus: real)

  predicate ValidDraws(d: Draws) {
    GameUtils.IsDraw(d.size) && GameUtils.IsDraw(d.x) && GameUtils.IsDraw(d.speed) && GameUtils.IsDraw(d.bonus)
  }

  /** A new heart: just above the canvas, fully within its width, worth 50 with probability 0.2 and 10 otherwise. */
  function NewHeart(d: Draws): (h: Heart)
    requires ValidDraws(d)
    ensures h.size == d.size * 20.0 + 20.0 && HeartSizeMin <= h.size < HeartSizeMax
    ensures h.x == d.x * (800.0 - h.size) && h.speed == d.speed * 3.0 + 1.0
    ensures 0.0 <= h.x < CanvasWidth - h.size
    ensures h.y == -h.size
    ensures 1.0 <= h.speed < 4.0
    ensures h.points == (if d.bonus < 0.2 then 50 else 10)
  {
    var size := d.size * (HeartSizeMax - HeartSizeMin) + HeartSizeMin;
    var x := d.x * (CanvasWidth - size);
    GameUtils.ScaledDraw(d.x, CanvasWidth - size, x);
    Heart(x, -size, size, d.speed * 3.0 + 1.0, if d.bonus < 0.2 then 50 else 10)
  }

  datatype Spawned = Spawned(hearts: seq<Heart>, lastHeartTime: real)

  /** Time-gated spawn, as for fireballs: strictly more than 500 ms since the last one. */
  function SpawnHeart(hs: seq<Heart>, lastHeartTime: real, currentTime: real, d: Draws): (sp: Spawned)
    requires ValidDraws(d)
    ensures hs <= sp.hearts && |sp.hearts| <= |hs| + 1
    ensures |sp.hearts| == |hs| + 1 <==> currentTime - lastHeartTime > SpawnInterval
    ensures |sp.hearts| == |hs| + 1 ==> sp.hearts[|hs|] == NewHeart(d) && sp.lastHeartTime == currentTime
    ensures |sp.hearts| == |hs| ==> sp.lastHeartTime == lastHeartTime
  {
    if currentTime - lastHeartTime > SpawnInterval then
      Spawned(hs + [NewHeart(d)], currentTime)
    else
      Spawned(hs, lastHeartTime)
  }

  // ---------------------------------------------------------------------------
  // Fall, catch and prune

  /** The heart after one frame of falling at its own speed. */
  function Fall(h: Heart): Heart {
    h.(y := h.y + h.speed)
  }

  /** The catch test, on the heart's position after this frame's fall. */
  predicate Caught(h: Heart, basketX: real) {
    && h.y + h.size > CanvasHeight - BasketHeight
    && h.x + h.size > basketX
    && h.x < basketX + BasketWidth
  }

  /** The hearts that stay in play and the hearts caught this frame, both after falling. */
  datatype HeartsUpdate = HeartsUpdate(kept: seq<Heart>, caught: seq<Heart>)

  /**
    The filter pass: every heart falls; a caught heart leaves play and is
    scored; an uncaught one stays while its top is above the canvas bottom.
   */
  function UpdateHearts(hs: seq<Heart>, basketX: real): (u: HeartsUpdate)
    ensures |u.kept| + |u.caught| <= |hs|
  {
    if hs == [] then HeartsUpdate([], [])
    else
      var rest := UpdateHearts(hs[1..], basketX);
      var h := Fall(hs[0]);
      if Caught(h, basketX) then HeartsUpdate(rest.kept, [h] + rest.caught)
      else if h.y < CanvasHeight then HeartsUpdate([h] + rest.kept, rest.caught)
      else rest
  }

  /** A heart stays in play exactly when it is a fallen input heart that was not caught and is still above y = 600. */
  lemma {:induction false} KeptMembers(hs: seq<Heart>, basketX: real, h: Heart)
    ensures h in UpdateHearts(hs, basketX).kept <==>
      exists g :: g in hs && h == Heart(g.x, g.y + g.speed, g.size, g.speed, g.points)
                 && !Caught(h, basketX) && h.y < CanvasHeight
  {
    if hs != [] {
      KeptMembers(hs[1..], basketX, h);
      assert forall g :: g in hs <==> g == hs[0] || g in hs[1..];
    }
  }

  /** A heart is scored exactly when it is a fallen input heart that meets the catch test. */
  lemma {:induction false} CaughtMembers(hs: seq<Heart>, basketX: real, h: Heart)
    ensures h in UpdateHearts(hs, basketX).caught <==>
      exists g :: g in hs && h == Heart(g.x, g.y + g.speed, g.size, g.speed, g.points) && Caught(h, basketX)
  {
    if hs != [] {
      CaughtMembers(hs[1..], basketX, h);
      assert forall g :: g in hs <==> g == hs[0] || g in hs[1..];
    }
  }

  /** Every surviving heart is above the bottom of the canvas. */
  lemma KeptAboveBottom(hs: seq<Heart>, basketX: real)
    ensures forall h :: h in UpdateHearts(hs, basketX).kept ==> h.y < CanvasHeight
  {
    forall h | h in UpdateHearts(hs, basketX).kept
      ensures h.y < CanvasHeight
    {
      KeptMembers(hs, basketX, h);
    }
  }

  /** A spawn adds only a heart worth 10 or 50. */
  lemma SpawnKeepsPoints(hs: seq<Heart>, lastHeartTime: real, currentTime: real, d: Draws)
    requires ValidDraws(d)
    requires forall h :: h in hs ==> RegularPoints(h)
    ensures forall h :: h in SpawnHeart(hs, lastHeartTime, currentTime, d).hearts ==> RegularPoints(h)
  {
    var sp := SpawnHeart(hs, lastHeartTime, currentTime, d);
    forall h | h in sp.hearts ensures RegularPoints(h) {
      assert h in hs || h == NewHeart(d);
    }
  }

  /** Falling keeps a heart's value, so kept and caught hearts are worth 10 or 50 when the input hearts are. */
  lemma UpdateKeepsPoints(hs: seq<Heart>, basketX: real)
    requires forall h :: h in hs ==> RegularPoints(h)
    ensures var u := UpdateHearts(hs, basketX);
      && (forall h :: h in u.kept ==> RegularPoints(h) && h.y < CanvasHeight)
      && (forall h :: h in u.caught ==> RegularPoints(h))
  {
    var u := UpdateHearts(hs, basketX);
    forall h | h in u.caught ensures RegularPoints(h) {
      CaughtMembers(hs, basketX, h);
    }
    forall h | h in u.kept ensures RegularPoints(h) && h.y < CanvasHeight {
      KeptMembers(hs, basketX, h);
    }
  }

  function SumPoints(hs: seq<Heart>): int {
    if hs == [] then 0 else hs[0].points + SumPoints(hs[1..])
  }

  predicate RegularPoints(h: Heart) {
    h.points == 10 || h.points == 50
  }

  /** Catches of 10- and 50-point hearts add a multiple of ten, between 10 and 50 per heart. */
  lemma {:induction false} SumPointsBounds(hs: seq<Heart>)
    requires forall h :: h in hs ==> RegularPoints(h)
    ensures 10 * |hs| <= SumPoints(hs) <= 50 * |hs|
    ensures SumPoints(hs) % 10 == 0
  {
    if hs != [] {
      assert hs[0] in hs;
      assert forall h :: h in hs[1..] ==> h in hs;
      SumPointsBounds(hs[1..]);
    }
  }

  // ---------------------------------------------------------------------------
  // Session controller

  function Initial(): Session {
    Session(CanvasWidth / 2.0 - BasketWidth / 2.0, [], 0.0, false, false, 0, GameDuration, 0)
  }

  /** `handleStart`: a fresh running session with the basket centred. */
  function HandleStart(s: Session): (s': Session)
    ensures s'.basketX == 350.0 && s'.hearts == [] && s'.lastHeartTime == 0.0
    ensures s'.score == 0 && s'.timeLeft == 30.0 && s'.started && !s'.gameOver
    ensures s'.notifications == 0
  {
    Session(CanvasWidth / 2.0 - BasketWidth / 2.0, [], 0.0, true, false, 0, GameDuration, 0)
  }

  predicate Running(s: Session) {
    s.started && !s.gameOver
  }

  /**
    One animation frame at `currentTime` (ms), `dt` seconds after the previous
    one. When the clock runs out the game is over, and the level-completion
    notifier is called only if the score reached 500 before this frame's
    catches; the rest of the frame still runs.
   */
  function Tick(s: Session, currentTime: real, dt: real, d: Draws): (s': Session)
    requires ValidDraws(d)
    ensures !Running(s) ==> s' == s
    ensures Running(s) ==> (s'.gameOver <==> s.timeLeft - dt <= 0.0)
    ensures Running(s) ==> s'.timeLeft >= 0.0 && s'.timeLeft == GameUtils.CountDown(s.timeLeft, dt).timeLeft
    ensures Running(s) ==>
      var sp := SpawnHeart(s.hearts, s.lastHeartTime, currentTime, d);
      var u := UpdateHearts(sp.hearts, s.basketX);
      && s'.hearts == u.kept
      && s'.score == s.score + SumPoints(u.caught)
      && s'.lastHeartTime == sp.lastHeartTime
    ensures Running(s) ==>
      s'.notifications == s.notifications + (if s.timeLeft - dt <= 0.0 && s.score >= ScoreToWin then 1 else 0)
    ensures s'.basketX == s.basketX && s'.started == s.started
  {
    if !Running(s) then s
    else
      var clock := GameUtils.CountDown(s.timeLeft, dt);
      var won := clock.expired && s.score >= ScoreToWin;
      var spawned := SpawnHeart(s.hearts, s.lastHeartTime, currentTime, d);
      var u := UpdateHearts(spawned.hearts, s.basketX);
      var s' := s.(timeLeft := clock.timeLeft,
                   gameOver := clock.expired,
                   notifications := s.notifications + (if won then 1 else 0),
                   hearts := u.kept,
                   lastHeartTime := spawned.lastHeartTime,
                   score := s.score + SumPoints(u.caught));
      s'
  }

  /** The end-of-game message: a win once the score has reached 500. */
  predicate Won(s: Session) {
    s.gameOver && s.score >= ScoreToWin
  }

  /**
    The notifier as written misses a win reached in the expiry frame: at 490
    points a 10-point heart caught in the frame where the clock runs out gives
    the "won" message, but the notifier is not called.
   */
  lemma WinWithoutNotification()
    ensures var s := Session(0.0, [Heart(0.0, 545.0, 20.0, 1.0, 10)], 0.0, true, false, 490, 0.01, 0);
      var s' := Tick(s, 0.0, 0.02, Draws(0.0, 0.0, 0.0, 0.0));
      Won(s') && s'.notifications == s.notifications
  {
    var s := Session(0.0, [Heart(0.0, 545.0, 20.0, 1.0, 10)], 0.0, true, false, 490, 0.01, 0);
    var u := UpdateHearts(s.hearts, 0.0);
    assert u.caught == [Heart(0.0, 546.0, 20.0, 1.0, 10)];
  }

  /**
    The frame with the evidently intended notifier: everything as in `Tick`,
    but the notifier is called when the frame ends the game with a winning
    score after this frame's catches, so it agrees with the message shown.
   */
  function TickAsIntended(s: Session, currentTime: real, dt: real, d: Draws): (s': Session)
    requires ValidDraws(d)
    ensures s'.(notifications := 0) == Tick(s, currentTime, dt, d).(notifications := 0)
    ensures !Running(s) ==> s' == s
    ensures Running(s) ==> s'.notifications == s.notifications + (if Won(s') then 1 else 0)
  {
    var t := Tick(s, currentTime, dt, d);
    if Running(s) then t.(notifications := s.notifications + (if t.gameOver && t.score >= ScoreToWin then 1 else 0))
    else t
  }

  /**
    Every reachable session: basket on the canvas, clock within [0, 30], score
    a non-negative multiple of ten, every live heart worth 10 or 50 and above
    the canvas bottom, and the notifier called at most once, only after the
    game ended with a winning score.
   */
  predicate Valid(s: Session) {
    && 0.0 <= s.basketX <= CanvasWidth - BasketWidth
    && 0.0 <= s.timeLeft <= GameDuration
    && s.score >= 0 && s.score % 10 == 0
    && (forall h :: h in s.hearts ==> RegularPoints(h) && h.y < CanvasHeight)
    && s.notifications <= 1
    && (s.notifications == 1 ==> s.gameOver && s.score >= ScoreToWin)
  }

  lemma InitialValid()
    ensures Valid(Initial()) && Valid(HandleStart(Initial()))
  {
  }

  lemma HandleStartValid(s: Session)
    ensures Valid(HandleStart(s)) && Running(HandleStart(s))
  {
  }

  lemma MouseMovePreservesValid(s: Session, pointerX: real)
    requires Valid(s)
    ensures Valid(MouseMove(s, pointerX))
  {
  }

  /** Frames with non-negative gaps keep the session valid; the score never drops. */
  lemma TickPreservesValid(s: Session, currentTime: real, dt: real, d: Draws)
    requires ValidDraws(d) && dt >= 0.0
    requires Valid(s)
    ensures Valid(Tick(s, currentTime, dt, d))
    ensures Tick(s, currentTime, dt, d).score >= s.score
  {
    if Running(s) {
      var s' := Tick(s, currentTime, dt, d);
      var spawned := SpawnHeart(s.hearts, s.lastHeartTime, currentTime, d);
      var u := UpdateHearts(spawned.hearts, s.basketX);
      assert s'.hearts == u.kept && s'.score == s.score + SumPoints(u.caught);
      SpawnKeepsPoints(s.hearts, s.lastHeartTime, currentTime, d);
      UpdateKeepsPoints(spawned.hearts, s.basketX);
      SumPointsBounds(u.caught);
    }
  }

  /**
    With the intended notifier, a frame from a valid session keeps it valid
    and calls the notifier exactly when the game ends in a win.
   */
  lemma TickAsIntendedPreservesValid(s: Session, currentTime: real, dt: real, d: Draws)
    requires ValidDraws(d) && dt >= 0.0
    requires Valid(s)
    ensures Valid(TickAsIntended(s, currentTime, dt, d))
    ensures Running(s) ==>
      (TickAsIntended(s, currentTime, dt, d).notifications == s.notifications + 1 <==> Won(TickAsIntended(s, currentTime, dt, d)))
  {
    TickPreservesValid(s, currentTime, dt, d);
  }
}

=== FILE: levels.dfy ===
/**
  The level sequencer of the top-level page: a main menu, then three levels
  played in order (card shuffle, dodging game, word puzzle), then the final
  screen. Completing or skipping a level moves to the next one; at the last
  level it completes the game. Restart returns to the menu at level 1.
  The window-resize scale factor is layout and not modelled.
 */
module Levels {
  import opened Wrappers

  const TotalLevels: int := 3

  datatype Game = Game(started: bool, currentLevel: int, gameCompleted: bool)

  datatype MiniGame = FindTheQueen | AvatarGame | Connections

  /** What the page shows. */
  datatype Screen = MainMenu | Playing(level: int, game: MiniGame) | EmptyLevel(level: int) | FinalScreen

  function Initial(): Game {
    Game(false, 1, false)
  }

  /** The main menu's start button. */
  function HandleStart(g: Game): (g': Game)
    ensures g'.started && g'.currentLevel == g.currentLevel && g'.gameCompleted == g.gameCompleted
  {
    g.(started := true)
  }

  /**
    The level updater shared by both handlers: before the last level move on
    by one; at the last level stay there and mark the game completed.
   */
  function NextLevel(g: Game): (g': Game)
    ensures g'.started == g.started
    ensures g.currentLevel < TotalLevels ==> g'.currentLevel == g.currentLevel + 1 && g'.gameCompleted == g.gameCompleted
    ensures g.currentLevel >= TotalLevels ==> g'.currentLevel == g.currentLevel && g'.gameCompleted
  {
    if g.currentLevel < TotalLevels then g.(currentLevel := g.currentLevel + 1)
    else g.(gameCompleted := true)
  }

  /** `handleLevelComplete`, passed to every mini-game as its completion notifier. */
  function HandleLevelComplete(g: Game): (g': Game)
    ensures g.currentLevel < TotalLevels ==> g' == g.(currentLevel := g.currentLevel + 1)
    ensures g.currentLevel == TotalLevels ==> g' == g.(gameCompleted := true) && g'.currentLevel == 3
  {
    NextLevel(g)
  }

  /** `handleSkipLevel`: the "Skip Level" button. */
  function HandleSkipLevel(g: Game): (g': Game)
    ensures g.currentLevel < TotalLevels ==> g' == g.(currentLevel := g.currentLevel + 1)
    ensures g.currentLevel == TotalLevels ==> g' == g.(gameCompleted := true) && g'.currentLevel == 3
  {
    NextLevel(g)
  }

  /** Skipping a level is exactly the same transition as completing it. */
  lemma SkipIsComplete(g: Game)
    ensures HandleSkipLevel(g) == HandleLevelComplete(g)
  {
  }

  /** `resetGame`: back to the menu, at level 1, not completed, whatever the state. */
  function ResetGame(g: Game): (g': Game)
    ensures !g'.started && g'.currentLevel == 1 && !g'.gameCompleted
    ensures g' == Initial()
  {
    Game(false, 1, false)
  }

  /** The level-to-game table: exactly one mini-game per level 1..3. */
  function GameForLevel(level: int): (m: Option<MiniGame>)
    ensures m.Some? <==> 1 <= level <= TotalLevels
    ensures level == 1 ==> m == Some(FindTheQueen)
    ensures level == 2 ==> m == Some(AvatarGame)
    ensures level == 3 ==> m == Some(Connections)
  {
    if level == 1 then Some(FindTheQueen)
    else if level == 2 then Some(AvatarGame)
    else if level == 3 then Some(Connections)
    else None
  }

  /** Different levels play different games. */
  lemma GameForLevelInjective(l1: int, l2: int)
    requires 1 <= l1 <= TotalLevels && 1 <= l2 <= TotalLevels && l1 != l2
    ensures GameForLevel(l1) != GameForLevel(l2)
  {
  }

  function View(g: Game): (s: Screen)
    ensures !g.started ==> s == MainMenu
    ensures g.started && g.gameCompleted ==> s == FinalScreen
    ensures g.started && !g.gameCompleted && 1 <= g.currentLevel <= TotalLevels ==>
      s == Playing(g.currentLevel, GameForLevel(g.currentLevel).value)
  {
    if !g.started then MainMenu
    else if g.gameCompleted then FinalScreen
    else match GameForLevel(g.currentLevel)
      case Some(m) => Playing(g.currentLevel, m)
      case None => EmptyLevel(g.currentLevel)
  }

  predicate Valid(g: Game) {
    1 <= g.currentLevel <= TotalLevels
  }

  /** Starting from level 1, no transition leaves the range 1..3, so a game is always shown. */
  lemma TransitionsPreserveValid(g: Game)
    requires Valid(g)
    ensures Valid(HandleStart(g)) && Valid(HandleLevelComplete(g))
    ensures Valid(HandleSkipLevel(g)) && Valid(ResetGame(g))
    ensures !View(g).EmptyLevel?
  {
  }

  /** The state after `n` completions (or skips) from a freshly started game. */
  function AfterCompletions(g: Game, n: nat): Game
    decreases n
  {
    if n == 0 then g else AfterCompletions(HandleLevelComplete(g), n - 1)
  }

  /**
    After `n` completions from the first level the page is at level
    min(1 + n, 3), and the game is completed exactly when n >= 3.
   */
  lemma {:induction false} CompletionsFromStart(n: nat)
    ensures var g := AfterCompletions(HandleStart(Initial()), n);
      && g.started
      && g.currentLevel == (if n < 3 then 1 + n else 3)
      && (g.gameCompleted <==> n >= 3)
  {
    CompletionsFrom(HandleStart(Initial()), n);
  }

  lemma {:induction false} CompletionsFrom(g: Game, n: nat)
    requires Valid(g) && !g.gameCompleted
    ensures var g' := AfterCompletions(g, n);
      && g'.started == g.started
      && g'.currentLevel == (if g.currentLevel + n <= 3 then g.currentLevel + n else 3)
      && (g'.gameCompleted <==> g.currentLevel + n > 3)
    decreases n
  {
    if n > 0 {
      var next := HandleLevelComplete(g);
      if g.currentLevel < TotalLevels {
        CompletionsFrom(next, n - 1);
      } else {
        CompletedStays(next, n - 1);
      }
    }
  }

  /** Once completed, further completions leave the game completed at level 3. */
  lemma {:induction false} CompletedStays(g: Game, n: nat)
    requires g.currentLevel == TotalLevels && g.gameCompleted
    ensures AfterCompletions(g, n) == g
    decreases n
  {
    if n > 0 {
      CompletedStays(HandleLevelComplete(g), n - 1);
    }
  }
}

=== FILE: sequences.dfy ===
/** Small sequence helpers shared by the puzzle and card games. */
module Sequences {

  /** Exchange two positions; everything else, and the contents as a multiset, stay the same. */
  function Swap<T>(s: seq<T>, i: nat, j: nat): (r: seq<T>)
    requires i < |s| && j < |s|
    ensures |r| == |s| && r[i] == s[j] && r[j] == s[i]
    ensures forall k :: 0 <= k < |s| && k != i && k != j ==> r[k] == s[k]
    ensures multiset(r) == multiset(s)
  {
    s[i := s[j]][j := s[i]]
  }

  predicate NoDuplicates<T(==)>(s: seq<T>) {
    forall i, j :: 0 <= i < j < |s| ==> s[i] != s[j]
  }
}

=== FILE: wrappers.dfy ===
/** The optional value used where the source stores `null` or a value. */
module Wrappers {

  datatype Option<T> = None | Some(value: T)
}
